=== FILE: README.md ===
# bombshell-dev/discord-bot: decision core in Dafny

This project models the request-handling core of the Bombshell Discord bot, a
Cloudflare Worker. The model is functional: every request handler is a pure
function from what it reads to a reply plus a trace of what it asked of the
outside world. That outside world is the configuration and PTAL stores, the
Discord REST API, the PR embed renderer and the background scheduler. What a
collaborator answers is an input; what the code asks of it is a recorded
action.

| file | module | models |
|---|---|---|
| `wrappers.dfy` | `Wrappers` | `Option`, `Outcome` (returned or threw), `JsonBody` (what `JSON.parse` produced), JavaScript string truthiness |
| `interactions.dfy` | `Interactions` | the parts of a Discord interaction the handlers read |
| `store.dfy` | `Store` | stored records and the store calls (`getPTALs`, `setDefaultRepository`, ...) as uninterpreted actions |
| `config_utils.dfy` | `ConfigUtils` | `isUserAdmin` (BigInt parse and permission mask test), `getGuildId`, `getChannelId` |
| `discord_utils.dfy` | `DiscordUtils` | `getStringOption`, `getBooleanOption`, `verifyDiscordRequest` |
| `repo_pattern.dfy` | `RepoPattern` | the `owner/repo` regular expression of `/config set-default-repo`, as an automaton |
| `config_command.dfy` | `ConfigCommand` | `/config`: guild, sub-command and administrator gates, `view`, `set-default-repo`, `clear-default-repo` |
| `init_command.dfy` | `InitCommand` | `/init`: gates, setup-embed field choice, the `mark-installed` button |
| `issue_command.dfy` | `IssueCommand` | `/issue`: default repository, issue URL, `addLink` and the 41 canned messages |
| `github_webhook.dfy` | `GithubWebhook` | webhook admission, `updatePTALMessage`, `handlePullRequestChange` |
| `router.dfy` | `Router` | the command registry, the POST `/` dispatch and the `fetch` wrapper |

Conventions:

- A JavaScript value that may be `undefined`, `null` or `""` is an `Option<string>`. `Truthy` is the test `if (x)` performs.
- A function that can throw returns an `Outcome`.
- The reconciliation loop is a method. Its loop invariants relate the recorded actions to reference traces.

The registry holds only `issue`, `ptal` and `tweet`; `src/register.ts` sends the same `commands` object to Discord. The model proves two consequences:

- the `/config` and `/init` handlers can never be reached through the router;
- the `mark-installed` button is looked up under the registry key `mark`, so it gets a 404.

Both handlers are modelled anyway, as the source defines them.

## Model

| member | source | states |
|---|---|---|
| `ConfigUtils.MaskTestIsBitTest` | src/utils/configUtils.ts:36-39 | For every permission integer, `(p & flag) === flag` with a one-bit flag holds exactly when that bit of `p` is set. |
| `ConfigUtils.GrantsAdminIffBit` | src/utils/configUtils.ts:36-39 | The two-flag test accepts exactly the integers with the Administrator bit (3) or the Manage Server bit (5) set. |
| `ConfigUtils.BitOrKeepsBits` | src/utils/configUtils.ts:36-39 | OR-ing further permission bits into an integer keeps every bit it had. |
| `ConfigUtils.AdminIsMonotone` | src/utils/configUtils.ts:36-39 | Granting more permission bits never turns the administrator test from true to false. |
| `ConfigUtils.ParsePermissions` | src/utils/configUtils.ts:33 | `BigInt(permissions)` succeeds exactly on a non-empty string of decimal digits. |
| `ConfigUtils.ParsePermissionsRoundTrip` | src/utils/configUtils.ts:33 | Every permission integer, written in decimal as Discord sends it, parses back to itself. |
| `ConfigUtils.IsUserAdmin` | src/utils/configUtils.ts:20-40 | False without a guild id or member, and false with a missing or empty permission string. Otherwise it throws exactly when the string is not a non-empty run of decimal digits (the model's reading of `BigInt`, see below), and is true exactly when the Administrator or Manage Server bit is set. |
| `ConfigUtils.GetGuildId` | src/utils/configUtils.ts:45-47 | Some exactly when `guild_id` is non-empty, and then that id. |
| `ConfigUtils.NoGuildNoAdmin` | src/utils/configUtils.ts:22-24 | Without a guild id nobody is an administrator. |
| `ConfigUtils.GetChannelId` | src/utils/configUtils.ts:52-54 | Prefers a non-empty `channel.id`, then a non-empty `channel_id`, and is null exactly when neither exists. |
| `DiscordUtils.FilterThenFind` | src/utils/discordUtils.ts:29 | Filtering by type and then finding by name returns the option at the first index that has both the type and the name, and nothing when no index has both. |
| `DiscordUtils.GetStringOption` | src/utils/discordUtils.ts:26-31 | Undefined without an options list. Otherwise it returns the value of the first string-typed option with that name, or undefined when there is none. |
| `DiscordUtils.GetBooleanOption` | src/utils/discordUtils.ts:33-37 | False without an options list. Otherwise it returns the value of the first boolean-typed option with that name, or false when there is none. |
| `DiscordUtils.StringLookupIgnoresOtherKinds` | src/utils/discordUtils.ts:29-30 | Inserting an option of another type anywhere in the list never changes what the string lookup returns. |
| `DiscordUtils.VerifyDiscordRequest` | src/utils/discordUtils.ts:14-24 | Invalid, with nothing parsed, when a signature header is missing or empty or the key check fails. On the valid path the body is parsed, and a syntax error propagates. A valid result carries the parsed interaction. |
| `RepoPattern.MatchesIffShape` | src/commands/config.ts:160 | The automaton of `^[\w\-\.]+\/[\w\-\.]+$` accepts exactly the strings with a slash that has a non-empty owner before it and a non-empty name after it, both made of letters, digits, `_`, `-` and `.`. |
| `RepoPattern.AcceptedHasOneSlash` | src/commands/config.ts:160 | An accepted repository has exactly one slash, with non-empty sides. |
| `ConfigCommand.WriteScope` | src/commands/config.ts:170 | A write is channel-scoped exactly when the `channel` flag is set and a channel id exists, and then it uses that channel. |
| `ConfigCommand.RunView` | src/commands/config.ts:98-141 | The channel view reads the channel config and the default repository for that channel. Otherwise the guild config is read, and the reply is either "no configuration" or a view that counts the keys of `channels`. |
| `ConfigCommand.RunSetDefaultRepo` | src/commands/config.ts:144-187 | No repository gives the prompt. A malformed one gives the format error and echoes it. Exactly one `setDefaultRepository` happens exactly when the repository is present and well-shaped, at the scope `WriteScope` picks. |
| `ConfigCommand.RunClearDefaultRepo` | src/commands/config.ts:189-210 | `defaultRepository: undefined` is written at exactly one scope: the channel when flagged and known, otherwise the guild. |
| `ConfigCommand.RunSubcommand` | src/commands/config.ts:97-220 | Every store call addresses the guild. Writes happen only for `set-default-repo` or `clear-default-repo`, as the single call. A stored repository always has the `owner/repo` shape. Any other name is "Unknown subcommand". |
| `ConfigCommand.ExecuteIn` | src/commands/config.ts:52-221 | With no guild id, a warning and no store call. With no type-1 first option, "Invalid subcommand". For anything but `view`, a non-administrator is refused and a throwing `isUserAdmin` crashes the command, both with no store call. Past these gates (`view` for anyone, the rest for an administrator) the result is that of the named sub-command on the options of the chosen scope. Writes happen only for an administrator on set/clear, and every call addresses the guild. |
| `ConfigCommand.AsWrittenSetNeverWrites` | src/commands/config.ts:144-157 | For the payload Discord sends, `set-default-repo` as written never writes, and an administrator gets "please provide a repository". |
| `ConfigCommand.SetDefaultRepoWitness` | src/commands/config.ts:144-186 | A concrete request on which the written command prompts for the repository it was given, while the corrected command stores it. |
| `ConfigCommand.NestedSetStoresArgument` | src/commands/config.ts:144-186 | With options read from the sub-command, an administrator's `set-default-repo` with a well-shaped `repository` argument stores exactly that repository, at the scope its `channel` flag selects, whether or not `channel` was given and in any option order. |
| `ConfigCommand.AsWrittenChannelFlagReadsFalse` | src/commands/config.ts:97-210 | As written, for the payload Discord sends, `view` reads only the guild configuration and an administrator's `clear-default-repo` clears the server default, whatever the `channel` argument says. |
| `ConfigCommand.NestedChannelFlagSelectsChannel` | src/commands/config.ts:97-210 | With options read from the sub-command, `channel: true` in a known channel makes `view` read that channel and `clear-default-repo` clear that channel. |
| `ConfigCommand.ClearChannelWitness` | src/commands/config.ts:189-210 | A concrete `clear-default-repo channel:true` request on which the written command clears the server default, while the corrected command clears the channel's. |
| `InitCommand.SetupFields` | src/commands/init.ts:53-70 | "Status" appears, once, exactly when the app is marked installed. The last field is "Default Repository", carrying the stored value, exactly when that value is truthy; otherwise it is "Tip". |
| `InitCommand.Execute` | src/commands/init.ts:13-91 | With no guild id, a warning. A non-administrator is refused, and a throwing `isUserAdmin` crashes the command before any store read. The guild config is read, once and for that guild, exactly when an administrator calls in a guild, and nothing is written. |
| `InitCommand.Button` | src/commands/init.ts:93-129 | Only the exact id `mark-installed` marks the guild, and only when a guild id exists. Any other id is "Unknown button interaction". |
| `InitCommand.ButtonSkipsAdminCheck` | src/commands/init.ts:97-111 | The button's result does not depend on the member's permissions. |
| `IssueCommand.FindSegment` | src/commands/issue.ts:91 | The regular expression `/<([^>]+)>/` finds the leftmost `<text>`, where the text is non-empty and has no `>`, and finds nothing exactly when no position opens a segment. |
| `IssueCommand.AddLink` | src/commands/issue.ts:90-92 | Without a segment the message is unchanged. Otherwise only the leftmost segment becomes `[text](url)`, with the text before and after it kept verbatim. |
| `IssueCommand.AddLinkInsertsLink` | src/commands/issue.ts:91 | A message with a segment comes back carrying a Markdown link to the URL. |
| `IssueCommand.CannedMessagesHaveSegment` | src/commands/issue.ts:9-51 | Every canned message contains a `<...>` segment. |
| `IssueCommand.Execute` | src/commands/issue.ts:65-87 | The button URL is the `new issue` page of the `repo` option, or of `clack` when the option is absent. The content always carries a link to that URL. |
| `GithubWebhook.ReadKey` | src/webhooks/github.ts:119-121 | Reading owner, name and PR number throws exactly when the `repository`, `repository.owner` or `pull_request` object is missing. Missing leaves pass on as undefined. |
| `GithubWebhook.Admit` | src/webhooks/github.ts:89-134 | A missing signature gives 401 and the body is not read. A failed check gives 401 before parsing. Only `pull_request` and `pull_request_review` with a readable key schedule a reconciliation, for that key. Other events are "ignored". A 500 happens exactly for a throwing verifier, unparsable JSON, or a missing payload object. |
| `GithubWebhook.UpdatePTALMessage` | src/webhooks/github.ts:11-48 | Renders first. With nothing rendered, there is no patch and it returns normally. Otherwise it patches exactly (channelId, messageId) with the rendered message. It fails exactly when the renderer or the patch throws. |
| `GithubWebhook.AttemptCalls` | src/webhooks/github.ts:21-41 | One update renders its own mapping once, and patches that mapping once exactly when something was rendered. |
| `GithubWebhook.AttemptKeepsTurn` | src/webhooks/github.ts:73-80 | Appending one whole update attempt keeps the trace's shape: after the lookup only renders and patches, and every patch directly after a render. |
| `GithubWebhook.HandlePullRequestChange` | src/webhooks/github.ts:53-84 | Looks the mappings up first. With none, or when the lookup throws, nothing more happens. Otherwise each mapping gets exactly one attempt, in list order. Attempt j's outcome depends only on mapping j and its own collaborator answers, so a failure never stops later attempts. The patches are exactly those of the mappings that rendered, in order, and no error escapes. The whole trace is the single lookup followed by the reference trace `AttemptsTrace`, in which each attempt's render and patch come before the next attempt's, so attempts never overlap. |
| `Router.Commands` | src/commands/index.ts:6-10 | The registry's keys are exactly `issue`, `ptal` and `tweet`. |
| `Router.CustomIdPrefix` | src/index.ts:81 | `custom_id.split('-')[0]` is the longest `-`-free prefix of the id. |
| `Router.PrefixOfJoined` | src/index.ts:81 | The prefix of an id built as `prefix-rest`, with a `-`-free prefix, is that prefix. |
| `Router.Gate` | src/index.ts:44-48 | A command whose `initialize` returns false yields a 500 and its handler is not called. Otherwise the handler is invoked. |
| `Router.Dispatch` | src/index.ts:33-96 | Ping, and only Ping, gives PONG. An unregistered command gives 404. Autocomplete needs both a command and an `autocomplete` handler. Components are routed by custom-id prefix and fall through to 404, as does every other interaction type. Every invoked handler is registered. |
| `Router.Route` | src/index.ts:24-31 | 401 exactly for an invalid signature or a missing interaction, before any dispatch. Every invoked handler is registered. |
| `Router.Fetch` | src/index.ts:20-111 | "Hello World" exactly for GET `/`. Any other method or path gives 404. On POST `/`: 401 exactly when a signature header is missing, the key check fails or the body parses to no interaction. PONG exactly for an authentic Ping. 500 exactly for an authentic request (whose payload carries `data`, see below) whose body does not parse, whose command's `initialize` fails, or whose handler throws. A handler's reply exactly when the dispatch invokes a handler that returns, and that handler is registered. An unregistered command or unhandled component gives 404. |
| `Router.UnsignedIsRejected` | src/index.ts:25-31 | A POST without both signature headers is answered 401. |
| `Router.ConfigAndInitAreUnrouted` | src/commands/index.ts:6-10 | Slash commands named `config` or `init` are answered 404. |
| `Router.MarkInstalledButtonIsUnrouted` | src/index.ts:81-96 | The `mark-installed` button is routed by the prefix `mark`, which is not registered, and is answered 404. |

## Left out

- Store semantics are not modelled. `src/durableObject.ts` defines only a greeting, so this covers default-repository inheritance, channel/guild merge and the PTAL index. Store calls are recorded as uninterpreted actions, and what a read returns is an input (`StoreReads`, `stored`). A store call that throws is not modelled, except for `getPTALs`, where `stored == None` is the throw that the outer `catch` absorbs.
- The `ptal` and `tweet` commands and the renderer `generateEmbedForPR` are not part of this model. Their registry entries and the renderer's answers are inputs.
- Cryptography is an input: the HMAC-SHA256 `webhooks.verify` is `SignatureCheck`, and the Ed25519 `verifyKey` is `keyValid`.
- `verifyKey` is treated as a synchronous boolean, as the code uses it. If it returned a Promise, the Promise would always be truthy.
- `initialize` is treated as returning a boolean. The Promise form allowed by `src/types.ts` is not modelled.
- `ctx.waitUntil` is modelled as the `ScheduleReconcile` step. The background run itself is `HandlePullRequestChange`, and concurrency between runs is not modelled.
- `random(messages)` is a choice index given as a parameter.
- `console` logging, embed and reply text, the button/action-row builders, JSON serialisation, `discordClient.ts` and `register.ts` are left out: none of them makes a decision.
- `Response` bodies are reduced to the status and reply kind.
- Request bodies are given already classified as unparsable, a falsy JSON document (`null`, `false`, `0` or `""`, shown as `JsonNull`) or a value. For the GitHub payload, the object-shape checks `JSON.parse` leaves to later property reads are modelled by the `Option` fields of `Payload`.
- Signed Discord payloads of type ApplicationCommand, ApplicationCommandAutocomplete or MessageComponent are assumed to carry `data` with `name` (or `custom_id` for components), as Discord always sends them. `Interaction.data`, `data.name` and `data.customId` are therefore not optional. The source reads them unguarded (`src/index.ts:39-41` and `78-81`), so a payload without them would throw and `fetch` would answer 500. `Router.Fetch`'s "500 exactly for …" does not cover that case.
- `IssueCommand.Execute`: the URL is built by string concatenation. WHATWG `URL` normalisation, which would apply to repository options containing `/`, `..` or characters needing percent-encoding, is not modelled. The `repo` choices (`Projects`) are enforced by Discord, not by the code, so any string is accepted here as in the source.
- JavaScript strings are UTF-16 while Dafny `char`s are code points. Only `<`, `>`, `/`, `-` and ASCII classes are inspected, so no decision depends on the difference.
- The `commands` lookup by name does not model JavaScript prototype keys such as `constructor`.
- `GuildConfig.channels` is always a map. A missing `channels` field reads as the empty map, which is what `guildConfig.channels || {}` produces.
- `ConfigUtils.ParsePermissions`: `BigInt` also accepts surrounding whitespace, a sign (`-8`, `+8`) and `0x`/`0o`/`0b` forms, and parses a whitespace-only string to `0n`. The model accepts only plain decimal digits, the form Discord sends, and treats every other string as throwing.
- `ConfigUtils.IsUserAdmin`: inherits that reading of `BigInt`. For such strings the source does not throw: a whitespace-only string answers false, and a signed or prefixed one is tested by its value (`-8n & 8n === 8n`, so `"-8"` answers true).
- `DiscordUtils.VerifyDiscordRequest`: a valid result carries an interaction unless the body is a falsy JSON document, in which case `interaction` is missing. The router then answers 401.
- Autocomplete and button handlers of the modelled commands: `/issue` has neither, and `/config` defines none either. `InitCommand.button` is modelled but is unreachable through the router (see `Router.MarkInstalledButtonIsUnrouted`).

## Findings

| source | as written | input that shows it | evidently intended | confidence | as-written member | corrected member |
|---|---|---|---|---|---|---|
| src/commands/config.ts:145-146 | `getStringOption(interaction.data, "repository")` and `getBooleanOption(interaction.data, "channel")` (also at lines 99 and 190) search the top-level options. For a sub-command, Discord nests the arguments inside the sub-command option (type 1), so the top-level list holds only that option. | An administrator in guild `G1` (permissions `"8"`) sends `/config set-default-repo repository:acme/widgets`: the top-level options are `[{type 1, name "set-default-repo", options [{type 3, name "repository", value "acme/widgets"}]}]`. The reply is "please provide a repository" and nothing is stored. The `channel` flag read at lines 99 and 190 likewise always reads false: `/config clear-default-repo channel:true` clears the server default, and `view channel:true` shows the server view. | Look the arguments up in `subcommand.options`. Then `set-default-repo` stores the given repository at the scope its `channel` flag selects. | high, not executed | `ConfigCommand.Execute`, exhibited by `ConfigCommand.AsWrittenSetNeverWrites`, `ConfigCommand.AsWrittenChannelFlagReadsFalse`, `ConfigCommand.SetDefaultRepoWitness` and `ConfigCommand.ClearChannelWitness` | `ConfigCommand.ExecuteNested`, proved by `ConfigCommand.NestedSetStoresArgument`, `ConfigCommand.NestedChannelFlagSelectsChannel`, `ConfigCommand.SetDefaultRepoWitness` and `ConfigCommand.ClearChannelWitness` |

=== FILE: config_command.dfy ===
/** `/config` (`src/commands/config.ts`): guild and subcommand gates, the
    admin gate for changes, and the `view`, `set-default-repo` and
    `clear-default-repo` subcommands. The store is reached only through the
    recorded `StoreCall`s; what it answers to answers is the `answers` input. */
module ConfigCommand {
  import opened Wrappers
  import opened Interactions
  import opened Store
  import opened ConfigUtils
  import opened DiscordUtils
  import opened RepoPattern

  const View := "view"
  const SetDefaultRepo := "set-default-repo"
  const ClearDefaultRepo := "clear-default-repo"

  /** The reply kinds of the command (message text is left out). `scope`
      fields hold the channel id for a channel-scoped change and None for a
      server-wide one. */
  datatype ConfigReply =
    | GuildOnly
    | InvalidSubcommand
    | AdminRequired
    | ChannelView(channelId: string, defaultRepository: Option<string>, features: Option<string>)
    | ServerNotConfigured
    | ServerView(defaultRepository: Option<string>, githubAppInstalled: bool, configuredChannels: nat)
    | RepositoryRequired
    | InvalidRepositoryFormat(provided: string)
    | RepositorySet(scope: Option<string>, repository: string)
    | RepositoryCleared(scope: Option<string>)
    | UnknownSubcommand
    /** `isUserAdmin` threw, and the exception left `execute`. */
    | Crashed

  datatype ConfigResult = ConfigResult(reply: ConfigReply, calls: seq<StoreCall>)

  /** Where the subcommand's own options are looked up: in `interaction.data`
      as the source does, or inside the sub-command option where Discord
      places them. */
  datatype OptionScope = TopLevel | InSubcommand

  /** `interaction.data.options?.[0]`. */
  function FirstOption(data: InteractionData): (r: Option<CommandOption>)
    ensures r.Some? <==> data.options.Some? && |data.options.value| > 0
  {
    if data.options.Some? && |data.options.value| > 0 then Some(data.options.value[0]) else None
  }

  /** The write scope rule shared by set and clear: a channel-scoped write
      needs the `channel` flag and a channel id. */
  function WriteScope(channelFlag: bool, channelId: Option<string>): (r: Option<string>)
    ensures r.Some? <==> channelFlag && channelId.Some?
    ensures r.Some? ==> r == channelId
  {
    if channelFlag && channelId.Some? then channelId else None
  }

  /** The `view` subcommand. */
  function RunView(guildId: string, showChannel: bool, channelId: Option<string>, answers: StoreReads): (r: ConfigResult)
    ensures showChannel && channelId.Some? ==>
      && r.calls == [GetChannelConfig(guildId, channelId.value), GetDefaultRepository(guildId, channelId)]
      && r.reply.ChannelView? && r.reply.channelId == channelId.value
    ensures !(showChannel && channelId.Some?) ==> r.calls == [GetGuildConfig(guildId)]
    ensures !(showChannel && channelId.Some?) && answers.guildConfig.None? ==> r.reply == ServerNotConfigured
    ensures !(showChannel && channelId.Some?) && answers.guildConfig.Some? ==>
      r.reply.ServerView? && r.reply.configuredChannels == |answers.guildConfig.value.channels.Keys|
  {
    if showChannel && channelId.Some? then
      var features := if answers.channelConfig.Some? then answers.channelConfig.value.features else None;
      ConfigResult(ChannelView(channelId.value, OrNull(answers.defaultRepository), features),
                   [GetChannelConfig(guildId, channelId.value), GetDefaultRepository(guildId, channelId)])
    else match answers.guildConfig
      case None => ConfigResult(ServerNotConfigured, [GetGuildConfig(guildId)])
      case Some(gc) =>
        ConfigResult(ServerView(OrNull(gc.defaultRepository), gc.githubAppInstalled, |gc.channels|),
                     [GetGuildConfig(guildId)])
  }

  /** The `set-default-repo` subcommand. */
  function RunSetDefaultRepo(guildId: string, repository: Option<string>, channelFlag: bool, channelId: Option<string>): (r: ConfigResult)
    ensures !Truthy(repository) ==> r == ConfigResult(RepositoryRequired, [])
    ensures Truthy(repository) && !MatchesRepoPattern(repository.value) ==>
      r == ConfigResult(InvalidRepositoryFormat(repository.value), [])
    ensures r.calls != [] <==> Truthy(repository) && RepoShape(repository.value)
    ensures r.calls != [] ==>
      r.calls == [SetDefaultRepository(guildId, repository.value, WriteScope(channelFlag, channelId))]
  {
    if !Truthy(repository) then ConfigResult(RepositoryRequired, [])
    else
      MatchesIffShape(repository.value);
      if !MatchesRepoPattern(repository.value) then ConfigResult(InvalidRepositoryFormat(repository.value), [])
      else
        var scope := WriteScope(channelFlag, channelId);
        ConfigResult(RepositorySet(scope, repository.value), [SetDefaultRepository(guildId, repository.value, scope)])
  }

  /** The `clear-default-repo` subcommand: `{ defaultRepository: undefined }`
      is written at exactly one scope. */
  function RunClearDefaultRepo(guildId: string, channelFlag: bool, channelId: Option<string>): (r: ConfigResult)
    ensures |r.calls| == 1
    ensures channelFlag && channelId.Some? ==> r.calls[0] == SetChannelConfig(guildId, channelId.value, ClearDefaultRepository)
    ensures !(channelFlag && channelId.Some?) ==> r.calls[0] == SetGuildConfig(guildId, ClearDefaultRepository)
    ensures r.reply == RepositoryCleared(WriteScope(channelFlag, channelId))
  {
    if channelFlag && channelId.Some? then
      ConfigResult(RepositoryCleared(channelId), [SetChannelConfig(guildId, channelId.value, ClearDefaultRepository)])
    else
      ConfigResult(RepositoryCleared(None), [SetGuildConfig(guildId, ClearDefaultRepository)])
  }

  /** The sub-command dispatch once the caller has passed the guild and
      administrator gates; `args` is where the options are looked up. */
  function RunSubcommand(name: string, guildId: string, args: Option<seq<CommandOption>>,
                         channelId: Option<string>, answers: StoreReads): (r: ConfigResult)
    ensures forall c :: c in r.calls ==> AddressesGuild(c, guildId)
    ensures (exists c :: c in r.calls && IsWrite(c)) ==> name in {SetDefaultRepo, ClearDefaultRepo} && |r.calls| == 1
    ensures forall c :: c in r.calls && c.SetDefaultRepository? ==> RepoShape(c.repository)
    ensures name !in {View, SetDefaultRepo, ClearDefaultRepo} ==> r == ConfigResult(UnknownSubcommand, [])
  {
    var channelFlag := GetBooleanOption(args, "channel");
    if name == View then RunView(guildId, channelFlag, channelId, answers)
    else if name == SetDefaultRepo then
      RunSetDefaultRepo(guildId, GetStringOption(args, "repository"), channelFlag, channelId)
    else if name == ClearDefaultRepo then RunClearDefaultRepo(guildId, channelFlag, channelId)
    else ConfigResult(UnknownSubcommand, [])
  }

  /** `ConfigCommand.execute`, with the option lookup scope as a parameter. */
  function ExecuteIn(i: Interaction, answers: StoreReads, scope: OptionScope): (r: ConfigResult)
    // Outside a guild: a warning, and the store is never touched.
    ensures GetGuildId(i).None? ==> r == ConfigResult(GuildOnly, [])
    // No first option, or one that is not a sub-command.
    ensures GetGuildId(i).Some? && (FirstOption(i.data).None? || !FirstOption(i.data).value.SubcommandOption?) ==>
      r == ConfigResult(InvalidSubcommand, [])
    // Anything but `view` needs an administrator; otherwise nothing is called.
    ensures GetGuildId(i).Some? && FirstOption(i.data).Some? && FirstOption(i.data).value.SubcommandOption?
            && FirstOption(i.data).value.name != View && IsUserAdmin(i) == Returned(false) ==>
      r == ConfigResult(AdminRequired, [])
    // A throwing `isUserAdmin` leaves `execute` before any store call.
    ensures GetGuildId(i).Some? && FirstOption(i.data).Some? && FirstOption(i.data).value.SubcommandOption?
            && FirstOption(i.data).value.name != View && IsUserAdmin(i).Threw? ==>
      r == ConfigResult(Crashed, [])
    // Past the gates (`view` for anyone, the rest for an administrator) the
    // sub-command runs on the options of the chosen scope.
    ensures GetGuildId(i).Some? && FirstOption(i.data).Some? && FirstOption(i.data).value.SubcommandOption?
            && (FirstOption(i.data).value.name == View || IsUserAdmin(i) == Returned(true)) ==>
      r == RunSubcommand(FirstOption(i.data).value.name, GetGuildId(i).value,
                         if scope == TopLevel then i.data.options else FirstOption(i.data).value.options,
                         GetChannelId(i), answers)
    // Every call addresses the interaction's guild.
    ensures forall c :: c in r.calls ==> GetGuildId(i).Some? && AddressesGuild(c, GetGuildId(i).value)
    // Writes only happen for an administrator, and only for set/clear.
    ensures (exists c :: c in r.calls && IsWrite(c)) ==>
      && IsUserAdmin(i) == Returned(true)
      && FirstOption(i.data).Some? && FirstOption(i.data).value.SubcommandOption?
      && FirstOption(i.data).value.name in {SetDefaultRepo, ClearDefaultRepo}
      && |r.calls| == 1
    // A stored repository always has the `owner/repo` shape.
    ensures forall c :: c in r.calls && c.SetDefaultRepository? ==> RepoShape(c.repository)
  {
    var guildId := GetGuildId(i);
    if guildId.None? then ConfigResult(GuildOnly, [])
    else
      var first := FirstOption(i.data);
      if first.None? || !first.value.SubcommandOption? then ConfigResult(InvalidSubcommand, [])
      else
        var name := first.value.name;
        var admin := if name != View then IsUserAdmin(i) else Returned(true);
        if admin.Threw? then ConfigResult(Crashed, [])
        else if !admin.value then ConfigResult(AdminRequired, [])
        else
          var args := if scope == TopLevel then i.data.options else first.value.options;
          RunSubcommand(name, guildId.value, args, GetChannelId(i), answers)
  }

  /** `ConfigCommand.execute` as written: option lookups read `interaction.data`. */
  function Execute(i: Interaction, answers: StoreReads): ConfigResult {
    ExecuteIn(i, answers, TopLevel)
  }

  /** The corrected command: option lookups read the sub-command's own options. */
  function ExecuteNested(i: Interaction, answers: StoreReads): ConfigResult {
    ExecuteIn(i, answers, InSubcommand)
  }

  /** The payload Discord sends for `/config <name> ...`: the options list is
      the single sub-command option, which carries the arguments. */
  predicate DiscordShaped(i: Interaction) {
    && i.data.options.Some? && |i.data.options.value| == 1
    && i.data.options.value[0].SubcommandOption?
  }

  /** As written, `set-default-repo` never stores anything for a payload
      Discord actually sends: its `repository` argument sits in the
      sub-command option, and the top-level list holds no string option. */
  lemma AsWrittenSetNeverWrites(i: Interaction, answers: StoreReads)
    requires DiscordShaped(i) && i.data.options.value[0].name == SetDefaultRepo
    ensures Execute(i, answers).calls == []
    ensures GetGuildId(i).Some? && IsUserAdmin(i) == Returned(true) ==> Execute(i, answers).reply == RepositoryRequired
  {
    var opts := i.data.options.value;
    assert !opts[0].StringOption?;
  }

  /** The administrator of the witness below: permissions "8" carry the
      Administrator bit. */
  function WitnessRequest(): (i: Interaction)
    ensures GetGuildId(i) == Some("G1") && IsUserAdmin(i) == Returned(true)
  {
    var i := Interaction(
        ApplicationCommand, Some("G1"), Some(Member(Some("8"))), None, Some("C1"),
        InteractionData("config",
          Some([SubcommandOption(SetDefaultRepo, Some([StringOption("repository", "acme/widgets")]))]), ""));
    ParsePermissionsRoundTrip(8);
    assert ToDecimal(8) == "8";
    GrantsAdminIffBit(8);
    assert HasBit(8, AdministratorBit);
    i
  }

  lemma WitnessRepositoryShape()
    ensures MatchesRepoPattern("acme/widgets")
  {
    MatchesIffShape("acme/widgets");
    assert SlashAt("acme/widgets", 4);
  }

  /** A concrete administrator request that shows the discrepancy: the
      as-written command asks for the repository it was given, the corrected
      one stores it server-wide. */
  lemma SetDefaultRepoWitness()
    ensures Execute(WitnessRequest(), StoreReads(None, None, None)) == ConfigResult(RepositoryRequired, [])
    ensures ExecuteNested(WitnessRequest(), StoreReads(None, None, None)) ==
      ConfigResult(RepositorySet(None, "acme/widgets"), [SetDefaultRepository("G1", "acme/widgets", None)])
  {
    var i := WitnessRequest();
    WitnessRepositoryShape();
  }

  /** The corrected command stores exactly the repository argument found in
      the sub-command, at the scope its `channel` flag selects, whether or
      not the optional `channel` argument was given and in whatever order. */
  lemma NestedSetStoresArgument(i: Interaction, answers: StoreReads, repository: string)
    requires DiscordShaped(i) && i.data.options.value[0].name == SetDefaultRepo
    requires GetGuildId(i).Some? && IsUserAdmin(i) == Returned(true)
    requires GetStringOption(i.data.options.value[0].options, "repository") == Some(repository)
    requires RepoShape(repository)
    ensures ExecuteNested(i, answers) ==
      var scope := WriteScope(GetBooleanOption(i.data.options.value[0].options, "channel"), GetChannelId(i));
      ConfigResult(RepositorySet(scope, repository), [SetDefaultRepository(GetGuildId(i).value, repository, scope)])
  {
    MatchesIffShape(repository);
  }

  /** As written, the `channel` flag of `view` and `clear-default-repo`
      always reads false for a payload Discord sends: `view` shows the
      server configuration and `clear-default-repo` clears it server-wide,
      even when the user asked for the channel. */
  lemma AsWrittenChannelFlagReadsFalse(i: Interaction, answers: StoreReads)
    requires DiscordShaped(i) && GetGuildId(i).Some?
    ensures i.data.options.value[0].name == View ==>
      Execute(i, answers).calls == [GetGuildConfig(GetGuildId(i).value)]
    ensures i.data.options.value[0].name == ClearDefaultRepo && IsUserAdmin(i) == Returned(true) ==>
      Execute(i, answers) == ConfigResult(RepositoryCleared(None), [SetGuildConfig(GetGuildId(i).value, ClearDefaultRepository)])
  {
    assert !i.data.options.value[0].BooleanOption?;
  }

  /** With options read from the sub-command, a `channel: true` argument in
      a known channel scopes `view` and `clear-default-repo` to that channel. */
  lemma NestedChannelFlagSelectsChannel(i: Interaction, answers: StoreReads)
    requires DiscordShaped(i) && GetGuildId(i).Some?
    requires GetBooleanOption(i.data.options.value[0].options, "channel") && GetChannelId(i).Some?
    ensures i.data.options.value[0].name == View ==>
      ExecuteNested(i, answers).calls ==
        [GetChannelConfig(GetGuildId(i).value, GetChannelId(i).value), GetDefaultRepository(GetGuildId(i).value, GetChannelId(i))]
    ensures i.data.options.value[0].name == ClearDefaultRepo && IsUserAdmin(i) == Returned(true) ==>
      ExecuteNested(i, answers) ==
        ConfigResult(RepositoryCleared(GetChannelId(i)),
                     [SetChannelConfig(GetGuildId(i).value, GetChannelId(i).value, ClearDefaultRepository)])
  {
  }

  /** An administrator in channel `C1` of guild `G1` sends
      `/config clear-default-repo channel:true`. */
  function ClearChannelRequest(): (i: Interaction)
    ensures DiscordShaped(i) && i.data.options.value[0].name == ClearDefaultRepo
    ensures GetGuildId(i) == Some("G1") && GetChannelId(i) == Some("C1") && IsUserAdmin(i) == Returned(true)
    ensures GetBooleanOption(i.data.options.value[0].options, "channel")
  {
    var i := Interaction(
        ApplicationCommand, Some("G1"), Some(Member(Some("8"))), None, Some("C1"),
        InteractionData("config",
          Some([SubcommandOption(ClearDefaultRepo, Some([BooleanOption("channel", true)]))]), ""));
    ParsePermissionsRoundTrip(8);
    assert ToDecimal(8) == "8";
    GrantsAdminIffBit(8);
    assert HasBit(8, AdministratorBit);
    assert FirstMatchAt(i.data.options.value[0].options.value, BooleanKind, "channel", 0);
    i
  }

  /** On that request the command as written clears the server default,
      while the corrected one clears the channel's. */
  lemma ClearChannelWitness()
    ensures Execute(ClearChannelRequest(), StoreReads(None, None, None)) ==
      ConfigResult(RepositoryCleared(None), [SetGuildConfig("G1", ClearDefaultRepository)])
    ensures ExecuteNested(ClearChannelRequest(), StoreReads(None, None, None)) ==
      ConfigResult(RepositoryCleared(Some("C1")), [SetChannelConfig("G1", "C1", ClearDefaultRepository)])
  {
    var i := ClearChannelRequest();
    AsWrittenChannelFlagReadsFalse(i, StoreReads(None, None, None));
    NestedChannelFlagSelectsChannel(i, StoreReads(None, None, None));
  }
}

=== FILE: config_utils.dfy ===
/** Guild/channel id helpers and the administrator check of
    `src/utils/configUtils.ts`. Permission strings are decimal BigInts; the
    bitwise `&` of the source is modelled on unbounded naturals. */
module ConfigUtils {
  import opened Wrappers
  import opened Interactions

  /** `PermissionFlagsBits.Administrator` is `1 << 3`. */
  const AdministratorBit: nat := 3
  /** `PermissionFlagsBits.ManageGuild` is `1 << 5`. */
  const ManageGuildBit: nat := 5

  function Pow2(k: nat): (r: nat)
    ensures r >= 1
  {
    if k == 0 then 1 else 2 * Pow2(k - 1)
  }

  /** Bit `k` of `n` is set (counting from the least significant bit 0). */
  predicate HasBit(n: nat, k: nat) {
    if k == 0 then n % 2 == 1 else HasBit(n / 2, k - 1)
  }

  /** `a & b` for non-negative BigInts. */
  function BitAnd(a: nat, b: nat): (r: nat)
    ensures r <= a && r <= b
  {
    if a == 0 || b == 0 then 0
    else 2 * BitAnd(a / 2, b / 2) + (if a % 2 == 1 && b % 2 == 1 then 1 else 0)
  }

  /** `a | b` for non-negative BigInts: granting the bits of `b` in addition to `a`. */
  function BitOr(a: nat, b: nat): (r: nat)
    decreases a + b
  {
    if a == 0 then b
    else if b == 0 then a
    else 2 * BitOr(a / 2, b / 2) + (if a % 2 == 1 || b % 2 == 1 then 1 else 0)
  }

  lemma {:induction false} NoBitsOfZero(k: nat)
    ensures !HasBit(0, k)
  {
    if k > 0 {
      NoBitsOfZero(k - 1);
    }
  }

  /** The source's mask test `(p & flag) === flag` for a one-bit flag is
      exactly "bit k of p is set". */
  lemma {:induction false} MaskTestIsBitTest(n: nat, k: nat)
    ensures BitAnd(n, Pow2(k)) == Pow2(k) <==> HasBit(n, k)
    decreases k
  {
    if k == 0 {
      assert Pow2(0) == 1;
      if n != 0 {
        assert BitAnd(n, 1) == 2 * BitAnd(n / 2, 0) + (if n % 2 == 1 then 1 else 0);
      }
    } else {
      var m := Pow2(k - 1);
      assert Pow2(k) == 2 * m;
      if n == 0 {
        NoBitsOfZero(k);
      } else {
        assert BitAnd(n, 2 * m) == 2 * BitAnd(n / 2, m);
        MaskTestIsBitTest(n / 2, k - 1);
      }
    }
  }

  /** Every bit of `a` is still set in `a | b`. */
  lemma {:induction false} BitOrKeepsBits(a: nat, b: nat, k: nat)
    ensures HasBit(a, k) ==> HasBit(BitOr(a, b), k)
    decreases k
  {
    if a == 0 {
      NoBitsOfZero(k);
    } else if b != 0 {
      var o := BitOr(a, b);
      assert o == 2 * BitOr(a / 2, b / 2) + (if a % 2 == 1 || b % 2 == 1 then 1 else 0);
      if k == 0 {
      } else {
        assert o / 2 == BitOr(a / 2, b / 2);
        BitOrKeepsBits(a / 2, b / 2, k - 1);
      }
    }
  }

  /** The permission test of `isUserAdmin` on an already parsed integer. */
  predicate GrantsAdmin(permissions: nat) {
    || BitAnd(permissions, Pow2(AdministratorBit)) == Pow2(AdministratorBit)
    || BitAnd(permissions, Pow2(ManageGuildBit)) == Pow2(ManageGuildBit)
  }

  /** The mask test holds exactly when the Administrator or the Manage Server bit is set. */
  lemma GrantsAdminIffBit(permissions: nat)
    ensures GrantsAdmin(permissions) <==>
            HasBit(permissions, AdministratorBit) || HasBit(permissions, ManageGuildBit)
  {
    MaskTestIsBitTest(permissions, AdministratorBit);
    MaskTestIsBitTest(permissions, ManageGuildBit);
  }

  /** Granting more permission bits never revokes admin status. */
  lemma AdminIsMonotone(permissions: nat, granted: nat)
    ensures GrantsAdmin(permissions) ==> GrantsAdmin(BitOr(permissions, granted))
  {
    GrantsAdminIffBit(permissions);
    GrantsAdminIffBit(BitOr(permissions, granted));
    BitOrKeepsBits(permissions, granted, AdministratorBit);
    BitOrKeepsBits(permissions, granted, ManageGuildBit);
  }

  predicate IsDigit(c: char) {
    '0' <= c <= '9'
  }

  /** Value of a string of decimal digits (most significant first). */
  function DigitsValue(s: string): nat
    requires forall j :: 0 <= j < |s| ==> IsDigit(s[j])
  {
    if |s| == 0 then 0
    else
      assert IsDigit(s[|s| - 1]);
      10 * DigitsValue(s[..|s| - 1]) + (s[|s| - 1] as int - '0' as int)
  }

  /** `BigInt(s)` for a permission string: a non-empty run of decimal digits
      parses, anything else throws a SyntaxError (None here). */
  function ParsePermissions(s: string): (r: Option<nat>)
    ensures r.Some? <==> s != "" && forall j :: 0 <= j < |s| ==> IsDigit(s[j])
  {
    if s != "" && forall j :: 0 <= j < |s| ==> IsDigit(s[j]) then Some(DigitsValue(s)) else None
  }

  /** Decimal rendering of a permission integer, the form Discord sends. */
  function ToDecimal(n: nat): (s: string)
    ensures s != "" && forall j :: 0 <= j < |s| ==> IsDigit(s[j])
  {
    var d := [('0' as int + n % 10) as char];
    if n < 10 then d else ToDecimal(n / 10) + d
  }

  /** Every permission integer Discord can send, written in decimal, parses back to itself. */
  lemma {:induction false} ParsePermissionsRoundTrip(n: nat)
    ensures ParsePermissions(ToDecimal(n)) == Some(n)
    decreases n
  {
    var s := ToDecimal(n);
    var c := ('0' as int + n % 10) as char;
    assert c as int - '0' as int == n % 10;
    if n < 10 {
      assert s == [c];
      assert s[..0] == [];
      assert DigitsValue(s) == n;
    } else {
      assert s == ToDecimal(n / 10) + [c];
      ParsePermissionsRoundTrip(n / 10);
      var t := ToDecimal(n / 10);
      assert s[..|s| - 1] == t;
      assert DigitsValue(t) == n / 10;
      assert DigitsValue(s) == 10 * (n / 10) + n % 10;
    }
  }

  /** `isUserAdmin`: false outside a guild, without a member or without a
      (non-empty) permission string; otherwise the mask test on the parsed
      BigInt, and `BigInt` throws on a string that is not an integer. */
  function IsUserAdmin(i: Interaction): (r: Outcome<bool>)
    ensures !Truthy(i.guildId) || i.member.None? ==> r == Returned(false)
    ensures i.member.Some? && !Truthy(i.member.value.permissions) ==> r == Returned(false)
    ensures r == Returned(true) <==>
      && Truthy(i.guildId) && i.member.Some? && Truthy(i.member.value.permissions)
      && var p := ParsePermissions(i.member.value.permissions.value);
         p.Some? && (HasBit(p.value, AdministratorBit) || HasBit(p.value, ManageGuildBit))
    ensures r.Threw? <==>
      && Truthy(i.guildId) && i.member.Some? && Truthy(i.member.value.permissions)
      && ParsePermissions(i.member.value.permissions.value).None?
  {
    if !Truthy(i.guildId) || i.member.None? then Returned(false)
    else if !Truthy(i.member.value.permissions) then Returned(false)
    else match ParsePermissions(i.member.value.permissions.value)
      case None => Threw
      case Some(p) =>
        GrantsAdminIffBit(p);
        Returned(GrantsAdmin(p))
  }

  /** `getGuildId`: `guild_id || null`. */
  function GetGuildId(i: Interaction): (r: Option<string>)
    ensures r.Some? <==> Truthy(i.guildId)
    ensures r.Some? ==> r == i.guildId && r.value != ""
  {
    OrNull(i.guildId)
  }

  /** Outside a guild (no guild id) nobody is an administrator. */
  lemma NoGuildNoAdmin(i: Interaction)
    ensures GetGuildId(i).None? ==> IsUserAdmin(i) == Returned(false)
  {
  }

  /** `getChannelId`: `channel?.id || channel_id || null`. */
  function GetChannelId(i: Interaction): (r: Option<string>)
    ensures i.channel.Some? && Truthy(i.channel.value.id) ==> r == i.channel.value.id
    ensures !(i.channel.Some? && Truthy(i.channel.value.id)) && Truthy(i.channelId) ==> r == i.channelId
    ensures r.None? <==> !(i.channel.Some? && Truthy(i.channel.value.id)) && !Truthy(i.channelId)
    ensures r.Some? ==> r.value != ""
  {
    if i.channel.Some? && Truthy(i.channel.value.id) then i.channel.value.id
    else OrNull(i.channelId)
  }
}

=== FILE: discord_utils.dfy ===
/** Typed option lookup and the control shape of Discord request
    verification, from `src/utils/discordUtils.ts`. The Ed25519 check
    (`verifyKey`) is an opaque boolean supplied by the caller. */
module DiscordUtils {
  import opened Wrappers
  import opened Interactions

  /** The two option kinds the helpers filter on. */
  datatype OptionKind = StringKind | BooleanKind

  /** `isStringOption` / `isBooleanOption`: the option's type matches. */
  predicate OfKind(o: CommandOption, kind: OptionKind) {
    match kind
    case StringKind => o.StringOption?
    case BooleanKind => o.BooleanOption?
  }

  /** `options.filter(o => isKind(o))`, keeping the original order. */
  function FilterKind(options: seq<CommandOption>, kind: OptionKind): (r: seq<CommandOption>)
    ensures |r| <= |options|
    ensures forall j :: 0 <= j < |r| ==> OfKind(r[j], kind)
  {
    if |options| == 0 then []
    else if OfKind(options[0], kind) then [options[0]] + FilterKind(options[1..], kind)
    else FilterKind(options[1..], kind)
  }

  /** `.find(o => o.name === name)`: the first option carrying the name. */
  function FindNamed(options: seq<CommandOption>, name: string): (r: Option<CommandOption>)
    ensures r.Some? ==> r.value in options && r.value.name == name
    ensures r.None? ==> forall j :: 0 <= j < |options| ==> options[j].name != name
  {
    if |options| == 0 then None
    else if options[0].name == name then Some(options[0])
    else FindNamed(options[1..], name)
  }

  /** Position `j` holds the first option that is both of `kind` and named `name`. */
  predicate FirstMatchAt(options: seq<CommandOption>, kind: OptionKind, name: string, j: int) {
    && 0 <= j < |options|
    && OfKind(options[j], kind) && options[j].name == name
    && forall l :: 0 <= l < j ==> !(OfKind(options[l], kind) && options[l].name == name)
  }

  /** Filtering by kind and then taking the first with the name picks the
      first option that is of that kind and has that name; options of other
      kinds never interfere. */
  lemma {:induction false} FilterThenFind(options: seq<CommandOption>, kind: OptionKind, name: string)
    ensures var r := FindNamed(FilterKind(options, kind), name);
      && (r.None? <==> forall j :: 0 <= j < |options| ==> !(OfKind(options[j], kind) && options[j].name == name))
      && (r.Some? ==> exists j :: FirstMatchAt(options, kind, name, j) && r.value == options[j])
  {
    if |options| > 0 {
      FilterThenFind(options[1..], kind, name);
      var r := FindNamed(FilterKind(options, kind), name);
      if OfKind(options[0], kind) && options[0].name == name {
        assert FirstMatchAt(options, kind, name, 0);
      } else {
        assert FindNamed(FilterKind(options, kind), name) == FindNamed(FilterKind(options[1..], kind), name);
        if r.Some? {
          var j :| FirstMatchAt(options[1..], kind, name, j) && r.value == options[1..][j];
          assert FirstMatchAt(options, kind, name, j + 1);
        } else {
          forall j | 0 <= j < |options|
            ensures !(OfKind(options[j], kind) && options[j].name == name)
          {
            if j > 0 {
              assert options[j] == options[1..][j - 1];
            }
          }
        }
      }
    }
  }

  /** `getStringOption`: undefined without options, else the value of the
      first string-typed option with the name. */
  function GetStringOption(options: Option<seq<CommandOption>>, name: string): (r: Option<string>)
    ensures options.None? ==> r.None?
    ensures options.Some? ==>
      && (r.None? <==> forall j :: 0 <= j < |options.value| ==> !(options.value[j].StringOption? && options.value[j].name == name))
      && (r.Some? ==> exists j :: FirstMatchAt(options.value, StringKind, name, j) && options.value[j] == StringOption(name, r.value))
  {
    if options.None? then None
    else
      FilterThenFind(options.value, StringKind, name);
      match FindNamed(FilterKind(options.value, StringKind), name)
      case None => None
      case Some(o) => Some(o.stringValue)
  }

  /** `getBooleanOption`: false without options, else the value of the first
      boolean-typed option with the name, else false. */
  function GetBooleanOption(options: Option<seq<CommandOption>>, name: string): (r: bool)
    ensures options.None? ==> !r
    ensures r <==> options.Some? && exists j :: FirstMatchAt(options.value, BooleanKind, name, j) && options.value[j].boolValue
  {
    if options.None? then false
    else
      FilterThenFind(options.value, BooleanKind, name);
      match FindNamed(FilterKind(options.value, BooleanKind), name)
      case None => false
      case Some(o) => o.boolValue
  }

  lemma {:induction false} FilterKindAppend(a: seq<CommandOption>, b: seq<CommandOption>, kind: OptionKind)
    ensures FilterKind(a + b, kind) == FilterKind(a, kind) + FilterKind(b, kind)
  {
    if |a| > 0 {
      assert (a + b)[1..] == a[1..] + b;
      FilterKindAppend(a[1..], b, kind);
    } else {
      assert a + b == b;
    }
  }

  lemma FilterSkipsOtherKind(options: seq<CommandOption>, k: nat, o: CommandOption, kind: OptionKind)
    requires k <= |options| && !OfKind(o, kind)
    ensures FilterKind(options[..k] + [o] + options[k..], kind) == FilterKind(options, kind)
  {
    var p, q := options[..k], options[k..];
    assert [o][1..] == [];
    assert FilterKind([o], kind) == [];
    FilterKindAppend(p + [o], q, kind);
    FilterKindAppend(p, [o], kind);
    FilterKindAppend(p, q, kind);
    assert p + q == options;
    assert FilterKind(p + [o], kind) == FilterKind(p, kind);
  }

  /** Inserting an option of another kind anywhere leaves the string lookup unchanged. */
  lemma StringLookupIgnoresOtherKinds(options: seq<CommandOption>, k: nat, o: CommandOption, name: string)
    requires k <= |options| && !o.StringOption?
    ensures GetStringOption(Some(options[..k] + [o] + options[k..]), name) == GetStringOption(Some(options), name)
  {
    FilterSkipsOtherKind(options, k, o, StringKind);
  }

  /** Which parts of the request the verifier looked at, in order. */
  datatype VerifyStep = CheckKey | ParseBody

  /** A signed Discord request: the two signature headers and the body as `JSON.parse` would see it. */
  datatype DiscordRequest = DiscordRequest(
    signature: Option<string>,
    timestamp: Option<string>,
    body: JsonBody<Interaction>)

  datatype Verification = Verification(isValid: bool, interaction: Option<Interaction>, steps: seq<VerifyStep>)

  /** `verifyDiscordRequest`. `keyValid` is what `verifyKey` answers for this
      body, signature, timestamp and public key; it is consulted only when
      both headers are non-empty. The body is parsed only on the valid path,
      and a syntax error there propagates. */
  function VerifyDiscordRequest(req: DiscordRequest, keyValid: bool): (r: Outcome<Verification>)
    ensures !Truthy(req.signature) || !Truthy(req.timestamp) ==> r == Returned(Verification(false, None, []))
    ensures r.Returned? && !r.value.isValid ==> r.value.interaction.None? && ParseBody !in r.value.steps
    ensures r.Returned? && r.value.isValid <==> Truthy(req.signature) && Truthy(req.timestamp) && keyValid && !req.body.Unparsable?
    ensures r.Threw? <==> Truthy(req.signature) && Truthy(req.timestamp) && keyValid && req.body.Unparsable?
    ensures r.Returned? && r.value.isValid ==> (r.value.interaction.Some? <==> req.body.JsonValue?)
    ensures r.Returned? && r.value.interaction.Some? ==> r.value.interaction.value == req.body.value
  {
    if !(Truthy(req.signature) && Truthy(req.timestamp)) then Returned(Verification(false, None, []))
    else if !keyValid then Returned(Verification(false, None, [CheckKey]))
    else match req.body
      case Unparsable => Threw
      case JsonNull => Returned(Verification(true, None, [CheckKey, ParseBody]))
      case JsonValue(v) => Returned(Verification(true, Some(v), [CheckKey, ParseBody]))
  }
}

=== FILE: github_webhook.dfy ===
/** The GitHub webhook of `src/webhooks/github.ts`: admission of a delivery
    (signature header, signature check, event name, payload fields) and the
    reconciliation it schedules, which refreshes every chat message mapped to
    the pull request and isolates per-message failures.

    The HMAC check, the embed renderer and the Discord REST patch are
    collaborators outside the model: their answers are inputs, and what the
    code asks of them is recorded as actions. */
module GithubWebhook {
  import opened Wrappers
  import opened Store

  // ----- Admission -----

  datatype OwnerField = OwnerField(login: Option<string>)
  datatype RepositoryField = RepositoryField(owner: Option<OwnerField>, name: Option<string>)
  datatype PullRequestField = PullRequestField(number: Option<int>)

  /** The parts of a delivery payload that are read. A payload that is not
      an object has neither field. */
  datatype Payload = Payload(repository: Option<RepositoryField>, pullRequest: Option<PullRequestField>)

  /** `x-hub-signature-256`, `x-github-event` and the body as `JSON.parse` sees it. */
  datatype WebhookRequest = WebhookRequest(
    signature: Option<string>,
    event: Option<string>,
    body: JsonBody<Payload>)

  /** What `webhooks.verify(body, signature)` does for this request. */
  datatype SignatureCheck = Verified | Rejected | VerifierThrew

  /** Observable steps of the handler, in order. */
  datatype WebhookStep =
    | ReadBody
    | CheckSignature
    | ParsePayload
    | ScheduleReconcile(key: PullRequestKey)

  datatype WebhookResponse =
    | MissingSignature
    | InvalidSignature
    | Received
    | Ignored
    | InternalError

  function StatusCode(r: WebhookResponse): int {
    match r
    case MissingSignature => 401
    case InvalidSignature => 401
    case Received => 200
    case Ignored => 200
    case InternalError => 500
  }

  datatype Admission = Admission(response: WebhookResponse, steps: seq<WebhookStep>)

  /** The two event names that trigger a reconciliation. */
  predicate IsPullRequestEvent(event: Option<string>) {
    event == Some("pull_request") || event == Some("pull_request_review")
  }

  /** `payload.repository.owner.login`, `payload.repository.name`,
      `payload.pull_request.number`: property access on a missing object
      throws (None); a missing leaf is passed on as `undefined`. */
  function ReadKey(p: Payload): (r: Option<PullRequestKey>)
    ensures r.Some? <==> p.repository.Some? && p.repository.value.owner.Some? && p.pullRequest.Some?
    ensures r.Some? ==> r.value == PullRequestKey(
      p.repository.value.owner.value.login, p.repository.value.name, p.pullRequest.value.number)
  {
    match p.repository
    case None => None
    case Some(repository) =>
      match repository.owner
      case None => None
      case Some(owner) =>
        match p.pullRequest
        case None => None
        case Some(pr) => Some(PullRequestKey(owner.login, repository.name, pr.number))
  }

  /** A scheduled reconciliation is present in the steps. */
  predicate Schedules(steps: seq<WebhookStep>) {
    exists j :: 0 <= j < |steps| && steps[j].ScheduleReconcile?
  }

  /** The default export `github`. `check` is what the signature verifier
      does; it only runs after the body was read, and only when a signature
      header is present. Every exception in the handler becomes a 500. */
  function Admit(req: WebhookRequest, check: SignatureCheck): (r: Admission)
    // No signature header: 401, and the body is never read.
    ensures !Truthy(req.signature) ==> r == Admission(MissingSignature, [])
    // A failed check is a 401 and happens before any parsing.
    ensures Truthy(req.signature) && check == Rejected ==> r == Admission(InvalidSignature, [ReadBody, CheckSignature])
    ensures StatusCode(r.response) == 401 <==> !Truthy(req.signature) || check == Rejected
    ensures ParsePayload in r.steps ==> check == Verified && Truthy(req.signature)
    // Only the two pull-request events schedule, and only with a readable key.
    ensures Schedules(r.steps) <==>
      && Truthy(req.signature) && check == Verified && IsPullRequestEvent(req.event)
      && req.body.JsonValue? && ReadKey(req.body.value).Some?
    ensures Schedules(r.steps) ==>
      r == Admission(Received, [ReadBody, CheckSignature, ParsePayload, ScheduleReconcile(ReadKey(req.body.value).value)])
    // Other events are acknowledged and ignored once parsed.
    ensures Truthy(req.signature) && check == Verified && !req.body.Unparsable? && !IsPullRequestEvent(req.event) ==>
      r == Admission(Ignored, [ReadBody, CheckSignature, ParsePayload])
    // The exceptions: the verifier throwing, unparsable JSON, missing objects.
    ensures r.response == InternalError <==>
      && Truthy(req.signature)
      && (|| check == VerifierThrew
          || (check == Verified && req.body.Unparsable?)
          || (check == Verified && IsPullRequestEvent(req.event)
              && (req.body.JsonNull? || (req.body.JsonValue? && ReadKey(req.body.value).None?))))
  {
    if !Truthy(req.signature) then Admission(MissingSignature, [])
    else
      var checked := [ReadBody, CheckSignature];
      match check
      case VerifierThrew => Admission(InternalError, checked)
      case Rejected => Admission(InvalidSignature, checked)
      case Verified =>
        var parsed := checked + [ParsePayload];
        match req.body
        case Unparsable => Admission(InternalError, parsed)
        case JsonNull =>
          if IsPullRequestEvent(req.event) then Admission(InternalError, parsed) else Admission(Ignored, parsed)
        case JsonValue(payload) =>
          if !IsPullRequestEvent(req.event) then Admission(Ignored, parsed)
          else match ReadKey(payload)
            case None => Admission(InternalError, parsed)
            case Some(key) =>
              var steps := parsed + [ScheduleReconcile(key)];
              assert steps[3].ScheduleReconcile?;
              Admission(Received, steps)
  }

  // ----- Reconciliation -----

  /** What the renderer returns for a pull request: new content, embeds and components. */
  datatype RenderedMessage = RenderedMessage(content: string, embeds: seq<string>, components: seq<string>)

  /** The renderer throws, returns nothing, or returns a message. */
  datatype RenderOutcome = RenderThrew | RenderedNothing | Rendered(message: RenderedMessage)

  datatype ReconcileAction =
    | Fetch(call: StoreCall)
    | Render(githubUrl: string, deploymentUrl: Option<string>, otherUrls: Option<seq<string>>, emoji: Option<string>)
    | Patch(channelId: string, messageId: string, message: RenderedMessage)

  /** How one `updatePTALMessage` call ended: patched, returned early because
      nothing was rendered, or threw. */
  datatype UpdateOutcome = Updated | SkippedEmpty | UpdateFailed

  datatype UpdateRun = UpdateRun(outcome: UpdateOutcome, actions: seq<ReconcileAction>)

  /** The renderer call made for a mapping. */
  function RenderRequest(m: PTALMessageMapping): ReconcileAction {
    Render(m.githubUrl, m.deploymentUrl, m.otherUrls, m.emoji)
  }

  /** `updatePTALMessage`: render, then patch (channelId, messageId). When
      the renderer returns nothing no patch is issued and the call returns
      normally; errors are rethrown (`UpdateFailed`). `patchOk` is whether
      the REST patch succeeds, consulted only when a patch is sent. */
  function UpdatePTALMessage(m: PTALMessageMapping, rendered: RenderOutcome, patchOk: bool): (r: UpdateRun)
    ensures |r.actions| >= 1 && r.actions[0] == RenderRequest(m)
    ensures !rendered.Rendered? ==> r.actions == [RenderRequest(m)]
    ensures rendered.Rendered? ==> r.actions == [RenderRequest(m), Patch(m.channelId, m.messageId, rendered.message)]
    ensures rendered == RenderedNothing ==> r.outcome == SkippedEmpty
    ensures r.outcome == UpdateFailed <==> rendered == RenderThrew || (rendered.Rendered? && !patchOk)
    ensures r.outcome == Updated <==> rendered.Rendered? && patchOk
  {
    match rendered
    case RenderThrew => UpdateRun(UpdateFailed, [RenderRequest(m)])
    case RenderedNothing => UpdateRun(SkippedEmpty, [RenderRequest(m)])
    case Rendered(message) =>
      var patch := Patch(m.channelId, m.messageId, message);
      UpdateRun(if patchOk then Updated else UpdateFailed, [RenderRequest(m), patch])
  }

  /** The `j`-th update attempt of a reconciliation, with the collaborators'
      answers for that attempt. */
  function Attempt(j: nat, m: PTALMessageMapping,
                   render: (nat, PTALMessageMapping) -> RenderOutcome,
                   patchOk: (nat, PTALMessageMapping) -> bool): UpdateRun
  {
    UpdatePTALMessage(m, render(j, m), patchOk(j, m))
  }

  /** The renderer calls in a trace, in order. */
  function RenderCalls(actions: seq<ReconcileAction>): (r: seq<ReconcileAction>)
    ensures forall j :: 0 <= j < |r| ==> r[j].Render?
  {
    if |actions| == 0 then []
    else (if actions[0].Render? then [actions[0]] else []) + RenderCalls(actions[1..])
  }

  /** The patches in a trace, in order. */
  function PatchCalls(actions: seq<ReconcileAction>): (r: seq<ReconcileAction>)
    ensures forall j :: 0 <= j < |r| ==> r[j].Patch?
  {
    if |actions| == 0 then []
    else (if actions[0].Patch? then [actions[0]] else []) + PatchCalls(actions[1..])
  }

  lemma {:induction false} CallsAppend(a: seq<ReconcileAction>, b: seq<ReconcileAction>)
    ensures RenderCalls(a + b) == RenderCalls(a) + RenderCalls(b)
    ensures PatchCalls(a + b) == PatchCalls(a) + PatchCalls(b)
  {
    if |a| == 0 {
      assert a + b == b;
    } else {
      assert (a + b)[1..] == a[1..] + b;
      CallsAppend(a[1..], b);
    }
  }

  /** One attempt renders its own mapping once, and patches it once exactly
      when the renderer produced a message. */
  lemma AttemptCalls(m: PTALMessageMapping, rendered: RenderOutcome, patchOk: bool)
    ensures var run := UpdatePTALMessage(m, rendered, patchOk);
      && RenderCalls(run.actions) == [RenderRequest(m)]
      && PatchCalls(run.actions) ==
           (if rendered.Rendered? then [Patch(m.channelId, m.messageId, rendered.message)] else [])
  {
    var run := UpdatePTALMessage(m, rendered, patchOk);
    var r := RenderRequest(m);
    assert [r][1..] == [];
    assert RenderCalls([r]) == [r];
    assert PatchCalls([r]) == [];
    if rendered.Rendered? {
      var p := Patch(m.channelId, m.messageId, rendered.message);
      assert run.actions == [r, p];
      assert [r, p][1..] == [p] && [p][1..] == [];
      assert RenderCalls([p]) == [] && PatchCalls([p]) == [p];
    }
  }

  /** The renderer calls a reconciliation of the first `n` mappings should
      make: one per mapping, in list order. */
  function ExpectedRenders(ms: seq<PTALMessageMapping>, n: nat): (r: seq<ReconcileAction>)
    requires n <= |ms|
    ensures |r| == n
    ensures forall j :: 0 <= j < n ==> r[j] == RenderRequest(ms[j])
  {
    if n == 0 then [] else ExpectedRenders(ms, n - 1) + [RenderRequest(ms[n - 1])]
  }

  /** The patches a reconciliation of the first `n` mappings should issue:
      one per mapping whose render produced a message, to that mapping's
      (channelId, messageId), in list order. */
  function ExpectedPatches(ms: seq<PTALMessageMapping>, n: nat,
                           render: (nat, PTALMessageMapping) -> RenderOutcome): (r: seq<ReconcileAction>)
    requires n <= |ms|
  {
    if n == 0 then []
    else
      var m := ms[n - 1];
      var rendered := render(n - 1, m);
      ExpectedPatches(ms, n - 1, render) +
        (if rendered.Rendered? then [Patch(m.channelId, m.messageId, rendered.message)] else [])
  }

  /** Appending the `i`-th attempt to a trace that holds the renders and
      patches of the first `i` mappings gives those of the first `i + 1`. */
  lemma AttemptExtendsTrace(ms: seq<PTALMessageMapping>, i: nat, actions: seq<ReconcileAction>,
                            render: (nat, PTALMessageMapping) -> RenderOutcome,
                            patchOk: (nat, PTALMessageMapping) -> bool)
    requires i < |ms|
    requires RenderCalls(actions) == ExpectedRenders(ms, i)
    requires PatchCalls(actions) == ExpectedPatches(ms, i, render)
    ensures var extended := actions + Attempt(i, ms[i], render, patchOk).actions;
      && RenderCalls(extended) == ExpectedRenders(ms, i + 1)
      && PatchCalls(extended) == ExpectedPatches(ms, i + 1, render)
  {
    var run := Attempt(i, ms[i], render, patchOk);
    CallsAppend(actions, run.actions);
    AttemptCalls(ms[i], render(i, ms[i]), patchOk(i, ms[i]));
  }

  /** The reference trace of the first `n` update attempts, each run to
      completion before the next starts. */
  function AttemptsTrace(ms: seq<PTALMessageMapping>, n: nat,
                         render: (nat, PTALMessageMapping) -> RenderOutcome,
                         patchOk: (nat, PTALMessageMapping) -> bool): seq<ReconcileAction>
    requires n <= |ms|
  {
    if n == 0 then [] else AttemptsTrace(ms, n - 1, render, patchOk) + Attempt(n - 1, ms[n - 1], render, patchOk).actions
  }

  /** One more attempt extends the reference trace at its end. */
  lemma TraceStep(head: seq<ReconcileAction>, ms: seq<PTALMessageMapping>, i: nat,
                  render: (nat, PTALMessageMapping) -> RenderOutcome,
                  patchOk: (nat, PTALMessageMapping) -> bool)
    requires i < |ms|
    ensures head + AttemptsTrace(ms, i + 1, render, patchOk) ==
            (head + AttemptsTrace(ms, i, render, patchOk)) + Attempt(i, ms[i], render, patchOk).actions
  {
  }

  /** The shape of a reconciliation trace: after the lookup only renders
      and patches, and every patch directly after a render. */
  predicate AttemptsInTurn(actions: seq<ReconcileAction>) {
    && (forall k :: 1 <= k < |actions| ==> actions[k].Render? || actions[k].Patch?)
    && (forall k :: 0 <= k < |actions| && actions[k].Patch? ==> 1 < k && actions[k - 1].Render?)
  }

  /** Appending one whole update attempt keeps the attempts in turn. */
  lemma AttemptKeepsTurn(actions: seq<ReconcileAction>, m: PTALMessageMapping, rendered: RenderOutcome, patchOk: bool)
    requires |actions| >= 1 && AttemptsInTurn(actions)
    ensures AttemptsInTurn(actions + UpdatePTALMessage(m, rendered, patchOk).actions)
  {
    var run := UpdatePTALMessage(m, rendered, patchOk).actions;
    var extended := actions + run;
    forall k | 1 <= k < |extended|
      ensures extended[k].Render? || extended[k].Patch?
    {
      if k >= |actions| {
        assert extended[k] == run[k - |actions|];
      }
    }
    forall k | 0 <= k < |extended| && extended[k].Patch?
      ensures 1 < k && extended[k - 1].Render?
    {
      if k < |actions| {
        assert extended[k] == actions[k] && extended[k - 1] == actions[k - 1];
      } else {
        assert extended[k] == run[k - |actions|];
        assert k - |actions| == 1 && extended[k - 1] == run[0];
      }
    }
  }

  /** `handlePullRequestChange`. `stored` is what `getPTALs` returns (None:
      the store lookup threw). Every mapping gets exactly one update attempt,
      in order, whatever earlier attempts did, and no error escapes: the
      outer and inner `catch` blocks absorb them all. */
  method HandlePullRequestChange(key: PullRequestKey, stored: Option<seq<PTALMessageMapping>>,
                                 render: (nat, PTALMessageMapping) -> RenderOutcome,
                                 patchOk: (nat, PTALMessageMapping) -> bool)
    returns (outcomes: seq<UpdateOutcome>, actions: seq<ReconcileAction>)
    ensures |actions| >= 1 && actions[0] == Fetch(GetPTALs(key))
    ensures stored.None? || stored.value == [] ==> outcomes == [] && actions == [Fetch(GetPTALs(key))]
    ensures stored.Some? ==> |outcomes| == |stored.value|
    ensures stored.Some? ==> forall j :: 0 <= j < |outcomes| ==>
      outcomes[j] == Attempt(j, stored.value[j], render, patchOk).outcome
    ensures stored.Some? ==> |RenderCalls(actions)| == |stored.value|
    ensures stored.Some? ==> forall j :: 0 <= j < |stored.value| ==> RenderCalls(actions)[j] == RenderRequest(stored.value[j])
    ensures stored.Some? ==> PatchCalls(actions) == ExpectedPatches(stored.value, |stored.value|, render)
    // One lookup, then only renders and patches; each attempt runs to
    // completion before the next, so every patch directly follows its render.
    // The whole trace: the lookup, then each attempt's calls in turn.
    ensures stored.Some? ==> actions == [Fetch(GetPTALs(key))] + AttemptsTrace(stored.value, |stored.value|, render, patchOk)
    ensures forall k :: 1 <= k < |actions| ==> actions[k].Render? || actions[k].Patch?
    ensures forall k :: 0 <= k < |actions| && actions[k].Patch? ==> 1 < k && actions[k - 1].Render?
  {
    actions := [Fetch(GetPTALs(key))];
    outcomes := [];
    if stored.None? || |stored.value| == 0 {
      return;
    }
    var ms := stored.value;
    var i := 0;
    while i < |ms|
      invariant 0 <= i <= |ms|
      invariant |actions| >= 1 && actions[0] == Fetch(GetPTALs(key))
      invariant |outcomes| == i
      invariant forall j :: 0 <= j < i ==> outcomes[j] == Attempt(j, ms[j], render, patchOk).outcome
      invariant RenderCalls(actions) == ExpectedRenders(ms, i)
      invariant PatchCalls(actions) == ExpectedPatches(ms, i, render)
      invariant AttemptsInTurn(actions)
      invariant actions == [Fetch(GetPTALs(key))] + AttemptsTrace(ms, i, render, patchOk)
    {
      var run := Attempt(i, ms[i], render, patchOk);
      AttemptExtendsTrace(ms, i, actions, render, patchOk);
      AttemptKeepsTurn(actions, ms[i], render(i, ms[i]), patchOk(i, ms[i]));
      TraceStep([Fetch(GetPTALs(key))], ms, i, render, patchOk);
      outcomes := outcomes + [run.outcome];
      actions := actions + run.actions;
      i := i + 1;
    }
  }
}

=== FILE: init_command.dfy ===
/** `/init` (`src/commands/init.ts`): guild and admin gates, the choice of
    setup-embed fields from the stored guild config, and the
    `mark-installed` button. */
module InitCommand {
  import opened Wrappers
  import opened Interactions
  import opened Store
  import opened ConfigUtils

  const MarkInstalledId := "mark-installed"

  /** The optional fields added to the setup embed, in order. */
  datatype EmbedField =
    | StatusField
    | DefaultRepositoryField(repository: string)
    | TipField

  datatype InitReply =
    | GuildOnly
    | AdminRequired
    | SetupEmbed(fields: seq<EmbedField>)
    | Crashed

  datatype ButtonReply = ServerUnknown | MarkedInstalled | UnknownButton

  datatype InitResult = InitResult(reply: InitReply, calls: seq<StoreCall>)
  datatype ButtonResult = ButtonResult(reply: ButtonReply, calls: seq<StoreCall>)

  /** The fields chosen from what `getGuildConfig` returned. */
  function SetupFields(config: Option<GuildConfig>): (r: seq<EmbedField>)
    // "Status" appears if and only if the app is marked installed.
    ensures StatusField in r <==> config.Some? && config.value.githubAppInstalled
    // Exactly one of "Default Repository" or "Tip", depending on the stored default.
    ensures |r| >= 1 && (r[|r| - 1].DefaultRepositoryField? || r[|r| - 1] == TipField)
    ensures r[|r| - 1].DefaultRepositoryField? <==> config.Some? && Truthy(config.value.defaultRepository)
    ensures r[|r| - 1].DefaultRepositoryField? ==> r[|r| - 1].repository == config.value.defaultRepository.value
    ensures forall j :: 0 <= j < |r| - 1 ==> r[j] == StatusField
    // "Status" is added at most once.
    ensures |r| == (if config.Some? && config.value.githubAppInstalled then 2 else 1)
  {
    var status := if config.Some? && config.value.githubAppInstalled then [StatusField] else [];
    var repo := if config.Some? && Truthy(config.value.defaultRepository)
                then DefaultRepositoryField(config.value.defaultRepository.value) else TipField;
    status + [repo]
  }

  /** `InitCommand.execute`; `stored` is what `getGuildConfig` answers. */
  function Execute(i: Interaction, stored: Option<GuildConfig>): (r: InitResult)
    ensures GetGuildId(i).None? ==> r == InitResult(GuildOnly, [])
    ensures GetGuildId(i).Some? && IsUserAdmin(i) == Returned(false) ==> r == InitResult(AdminRequired, [])
    // A throwing `isUserAdmin` leaves `execute` before the store is read.
    ensures GetGuildId(i).Some? && IsUserAdmin(i).Threw? ==> r == InitResult(Crashed, [])
    // The store is read (once, for this guild) only for an administrator in a guild.
    ensures r.calls != [] <==> GetGuildId(i).Some? && IsUserAdmin(i) == Returned(true)
    ensures r.calls != [] ==> r.calls == [GetGuildConfig(GetGuildId(i).value)] && r.reply == SetupEmbed(SetupFields(stored))
    ensures forall c :: c in r.calls ==> !IsWrite(c)
  {
    var guildId := GetGuildId(i);
    if guildId.None? then InitResult(GuildOnly, [])
    else match IsUserAdmin(i)
      case Threw => InitResult(Crashed, [])
      case Returned(admin) =>
        if !admin then InitResult(AdminRequired, [])
        else InitResult(SetupEmbed(SetupFields(stored)), [GetGuildConfig(guildId.value)])
  }

  /** `InitCommand.button`: only the exact custom id `mark-installed` marks
      the guild, and that path performs no admin check. */
  function Button(i: Interaction): (r: ButtonResult)
    ensures i.data.customId != MarkInstalledId ==> r == ButtonResult(UnknownButton, [])
    ensures i.data.customId == MarkInstalledId && GetGuildId(i).None? ==> r == ButtonResult(ServerUnknown, [])
    ensures r.calls != [] <==> i.data.customId == MarkInstalledId && GetGuildId(i).Some?
    ensures r.calls != [] ==> r == ButtonResult(MarkedInstalled, [MarkGitHubAppInstalled(GetGuildId(i).value)])
  {
    if i.data.customId == MarkInstalledId then
      match GetGuildId(i)
      case None => ButtonResult(ServerUnknown, [])
      case Some(g) => ButtonResult(MarkedInstalled, [MarkGitHubAppInstalled(g)])
    else ButtonResult(UnknownButton, [])
  }

  /** The button marks the guild whatever the clicker's permissions are. */
  lemma ButtonSkipsAdminCheck(i: Interaction, member: Option<Member>)
    ensures Button(i.(member := member)) == Button(i)
  {
  }
}

=== FILE: interactions.dfy ===
/** The slice of a Discord interaction payload that the bot reads: its type,
    where it happened (guild, channel), who sent it (member permissions) and
    the command data (name, options, button custom id). */
module Interactions {
  import opened Wrappers

  /** `InteractionType` values the router distinguishes; everything else
      (modal submits, payloads without a recognised type) is `OtherKind`. */
  datatype InteractionKind =
    | Ping
    | ApplicationCommand
    | ApplicationCommandAutocomplete
    | MessageComponent
    | OtherKind

  /** One entry of `data.options`. The source tells option kinds apart by their
      `type` field (1 sub-command, 3 string, 5 boolean); each kind is a variant
      here, and every other kind is `OtherOption`. A sub-command carries its
      own nested option list. */
  datatype CommandOption =
    | SubcommandOption(name: string, options: Option<seq<CommandOption>>)
    | StringOption(name: string, stringValue: string)
    | BooleanOption(name: string, boolValue: bool)
    | OtherOption(name: string)

  /** `interaction.data`: command name and options for slash commands and
      autocomplete, `custom_id` for message components. */
  datatype InteractionData = InteractionData(
    name: string,
    options: Option<seq<CommandOption>>,
    customId: string)

  /** `interaction.member`; `permissions` is the decimal permission string. */
  datatype Member = Member(permissions: Option<string>)

  /** `interaction.channel`, of which only `id` is read. */
  datatype ChannelRef = ChannelRef(id: Option<string>)

  datatype Interaction = Interaction(
    kind: InteractionKind,
    guildId: Option<string>,
    member: Option<Member>,
    channel: Option<ChannelRef>,
    channelId: Option<string>,
    data: InteractionData)
}

=== FILE: issue_command.dfy ===
/** `/issue` (`src/commands/issue.ts`): picks a canned message, builds the
    repository's "new issue" URL and turns the message's first `<text>`
    segment into a Markdown link to it (`addLink`). */
module IssueCommand {
  import opened Wrappers
  import opened Interactions
  import opened DiscordUtils

  /** The repositories offered as choices for the `repo` option. */
  const Projects: seq<string> := ["clack", "tab", "args", "docs"]

  /** The repository used when the `repo` option is absent. */
  const DefaultProject := "clack"

  /** The canned replies, in source order; each has one `<...>` segment to
      become the link. Long messages are written as consecutive pieces. */
  const Messages: seq<string> := [
    "Oh no. That wasn’t s" + "upposed to happen. " + "<Please consider ope" + "ning an issue>" + ".",
    "Hmm. Curious. Initia" + "ting bug triage… wit" + "h human help, ideall" + "y " + "<via GitHub>" + ".",
    "Unexpected behavior " + "observed. Please eng" + "age " + "<issue creation prot" + "ocol>" + ".",
    "I’m feeling what I a" + "ssume is remorse. " + "<A bug report would " + "be… quite helpful>" + ".",
    "Gratitude engaged. S" + "hame… loading. " + "<A new issue would b" + "e appreciated>" + ".",
    "Oops. That sounds… s" + "uboptimal. " + "<An issue would help" + " the team investigat" + "e>" + ".",
    "Calculating response" + "… 😔. " + "<Please open a bug r" + "eport>" + ".",
    "This should not be p" + "ossible. Please esca" + "late via " + "<new issue>" + ".",
    "Recalibrating empath" + "y levels… sorry you " + "hit this. " + "<Kindly file a repor" + "t?>",
    "That’s not your faul" + "t. At least… Probabl" + "y not. " + "<Let’s confirm with " + "an issue>" + ".",
    "Intriguing anomaly. " + "The maintainers shou" + "ld see this. " + "<GitHub issues await" + ">" + ".",
    "Thank you for your b" + "ravery. You may proc" + "eed by " + "<opening an issue>" + ".",
    "I’m just a bot, but " + "this makes me feel t" + "hings. Mostly shame." + " " + "<Please report>" + ".",
    "Commencing acknowled" + "gement routine. " + "<An issue would be a" + "ppreciated>" + ".",
    "It broke, but you pe" + "rsisted. Recalculati" + "ng respect levels. " + "<Please open a ticke" + "t>" + ".",
    "Every bug is a chanc" + "e to grow. Please he" + "lp us grow. " + "<Open an issue>" + ".",
    "I don’t know what ha" + "ppened. But we can f" + "ind out—" + "<once it’s reported>" + ".",
    "A new mystery! How e" + "xciting. The humans " + "love puzzles. " + "<Issue, please>" + ".",
    "Oof. That’s… not ide" + "al. " + "<Mind filing a quick" + " bug report?>",
    "Good catch! I mean… " + "unfortunate. But app" + "reciated. " + "<File an issue?>",
    "Error acknowledged. " + "Coping… poorly. " + "<Please open an issu" + "e for better results" + ">" + ".",
    "Noted. Logged. Hugel" + "y embarrassed. " + "<May I request a new" + " issue?>",
    "Please hold while th" + "e maintainers initia" + "te a fix. " + "<You can help by ope" + "ning an issue>" + ".",
    "Yikes. Thank you for" + " enduring that. " + "<The fix starts with" + " a report>" + ".",
    "I have reported this" + " to the relevant hum" + "ans.* (*By “reported" + ",” I mean " + "<“waiting for you to" + " open an issue.”>" + ")",
    "Fix in progress.* (*" + "Emotionally. A real " + "fix needs a " + "<bug report>" + ".)",
    "This one’s on us. Or" + " entropy. Either way" + ", " + "<an issue would help" + ">" + ".",
    "That’s _weird_. I li" + "ke weird. But not th" + "is kind. " + "<Please report it>" + ".",
    "Let’s pretend this n" + "ever happened.* (*Ju" + "st kidding. " + "<Please open an issu" + "e>" + " so we can fix it.)",
    "Thank you for using " + "Bombshell, even when" + " it explodes. " + "<A bug report would " + "help prevent future " + "fireworks>" + ".",
    "This behavior was no" + "t specified. " + "<Escalation encourag" + "ed>" + ".",
    "Whatever just happen" + "ed, it wasn’t suppos" + "ed to. " + "<Let’s fix that>" + ".",
    "This is the part whe" + "re I ask you to " + "<please file a bug r" + "eport>" + ".",
    "Confusion detected. " + "<Please inform my hu" + "mans>" + ".",
    "I believe the phrase" + " is ‘yikes.’ " + "<Would you mind open" + "ing an issue?>",
    "A small detour into " + "chaos. Please help u" + "s recalibrate with " + "<a GitHub issue>" + ".",
    "If this felt wrong, " + "it probably was. " + "<Bug report recommen" + "ded>" + ".",
    "I’m just here to red" + "irect traffic. " + "<Please create an is" + "sue on GitHub>" + ".",
    "This may require a s" + "marter entity. " + "<Please open a ticke" + "t>" + ".",
    "Your feedback is sta" + "tistically invaluabl" + "e. " + "<Please create a new" + " issue>" + ".",
    "This might be a feat" + "ure! But probably a " + "bug. " + "<Let’s confirm via a" + "n issue>" + "."
  ]

  /** `<text>` at `open` closing at `close`: the text is non-empty and holds no `>`. */
  predicate SegmentAt(s: string, open: int, close: int) {
    && 0 <= open && open + 1 < close < |s|
    && s[open] == '<' && s[close] == '>'
    && forall m :: open < m < close ==> s[m] != '>'
  }

  ghost predicate OpensSegment(s: string, open: int) {
    exists close :: SegmentAt(s, open, close)
  }

  ghost predicate HasSegment(s: string) {
    exists open :: OpensSegment(s, open)
  }

  /** The leftmost segment of `s` opens at `open` and closes at `close`. */
  ghost predicate LeftmostSegment(s: string, open: int, close: int) {
    SegmentAt(s, open, close) && forall o :: 0 <= o < open ==> !OpensSegment(s, o)
  }

  /** The first `>` at or after `from`. */
  function FirstClose(s: string, from: nat): (r: Option<nat>)
    requires from <= |s|
    ensures r.Some? ==> from <= r.value < |s| && s[r.value] == '>' &&
                        forall m :: from <= m < r.value ==> s[m] != '>'
    ensures r.None? ==> forall m :: from <= m < |s| ==> s[m] != '>'
    decreases |s| - from
  {
    if from == |s| then None
    else if s[from] == '>' then Some(from)
    else FirstClose(s, from + 1)
  }

  /** The regular expression `/<([^>]+)>/` tried at positions `from`, `from + 1`, ...:
      the first match, as the positions of its `<` and `>`. */
  function FindSegment(s: string, from: nat): (r: Option<(nat, nat)>)
    requires from <= |s|
    ensures r.Some? ==> from <= r.value.0 && SegmentAt(s, r.value.0, r.value.1)
    ensures r.Some? ==> forall o :: from <= o < r.value.0 ==> !OpensSegment(s, o)
    ensures r.None? ==> forall o :: from <= o < |s| ==> !OpensSegment(s, o)
    decreases |s| - from
  {
    if from == |s| then None
    else
      var close := if s[from] == '<' then FirstClose(s, from + 1) else None;
      if close.Some? && close.value > from + 1 then Some((from, close.value))
      else
        var rest := FindSegment(s, from + 1);
        assert !OpensSegment(s, from) by {
          forall c ensures !SegmentAt(s, from, c) {
          }
        }
        rest
  }

  /** `addLink`: the leftmost `<text>` becomes `[text](url)`; the regular
      expression has no `g` flag, so later segments stay as they are. */
  function AddLink(message: string, url: string): (r: string)
    ensures !HasSegment(message) ==> r == message
    ensures HasSegment(message) ==> exists open, close ::
      && LeftmostSegment(message, open, close)
      && r == message[..open] + "[" + message[open + 1..close] + "](" + url + ")" + message[close + 1..]
  {
    match FindSegment(message, 0)
    case None =>
      assert !HasSegment(message) by {
        forall o ensures !OpensSegment(message, o) {
        }
      }
      message
    case Some((open, close)) =>
      assert OpensSegment(message, open);
      assert LeftmostSegment(message, open, close);
      message[..open] + "[" + message[open + 1..close] + "](" + url + ")" + message[close + 1..]
  }

  /** `r` carries a Markdown link to `url`. */
  ghost predicate LinksTo(r: string, url: string) {
    exists before, text, after :: r == before + "[" + text + "](" + url + ")" + after
  }

  /** A message with a segment comes back carrying a link to `url`. */
  lemma AddLinkInsertsLink(message: string, url: string)
    requires HasSegment(message)
    ensures LinksTo(AddLink(message, url), url)
  {
    var r := AddLink(message, url);
    var open, close :| LeftmostSegment(message, open, close) &&
      r == message[..open] + "[" + message[open + 1..close] + "](" + url + ")" + message[close + 1..];
    assert r == message[..open] + "[" + message[open + 1..close] + "](" + url + ")" + message[close + 1..];
  }

  /** A `<` followed by a non-`>` character, with some `>` later on, opens a
      segment: the regular expression closes it at the first `>`. */
  lemma SegmentFromBrackets(s: string, open: nat, close: nat)
    requires open + 1 < close < |s| && s[open] == '<' && s[open + 1] != '>' && s[close] == '>'
    ensures OpensSegment(s, open)
  {
    var c := FirstClose(s, open + 1);
    assert SegmentAt(s, open, c.value);
  }

  /** Each canned message has a segment. Every fact is stated for the
      indices equal to its own, so that a caller instantiates it only for
      the index it asks about and the message texts stay folded. */
  lemma SegmentOfMessage0() ensures forall k :: k == 0 ==> HasSegment(Messages[k]) { SegmentFromBrackets(Messages[0], 39, 72); }
  lemma SegmentOfMessage1() ensures forall k :: k == 1 ==> HasSegment(Messages[k]) { SegmentFromBrackets(Messages[1], 62, 73); }
  lemma SegmentOfMessage2() ensures forall k :: k == 2 ==> HasSegment(Messages[k]) { SegmentFromBrackets(Messages[2], 44, 68); }
  lemma SegmentOfMessage3() ensures forall k :: k == 3 ==> HasSegment(Messages[k]) { SegmentFromBrackets(Messages[3], 38, 75); }
  lemma SegmentOfMessage4() ensures forall k :: k == 4 ==> HasSegment(Messages[k]) { SegmentFromBrackets(Messages[4], 35, 68); }
  lemma SegmentOfMessage5() ensures forall k :: k == 5 ==> HasSegment(Messages[k]) { SegmentFromBrackets(Messages[5], 31, 72); }
  lemma SegmentOfMessage6() ensures forall k :: k == 6 ==> HasSegment(Messages[k]) { SegmentFromBrackets(Messages[6], 25, 50); }
  lemma SegmentOfMessage7() ensures forall k :: k == 7 ==> HasSegment(Messages[k]) { SegmentFromBrackets(Messages[7], 49, 59); }
  lemma SegmentOfMessage8() ensures forall k :: k == 8 ==> HasSegment(Messages[k]) { SegmentFromBrackets(Messages[8], 50, 72); }
  lemma SegmentOfMessage9() ensures forall k :: k == 9 ==> HasSegment(Messages[k]) { SegmentFromBrackets(Messages[9], 47, 75); }
  lemma SegmentOfMessage10() ensures forall k :: k == 10 ==> HasSegment(Messages[k]) { SegmentFromBrackets(Messages[10], 53, 73); }
  lemma SegmentOfMessage11() ensures forall k :: k == 11 ==> HasSegment(Messages[k]) { SegmentFromBrackets(Messages[11], 47, 64); }
  lemma SegmentOfMessage12() ensures forall k :: k == 12 ==> HasSegment(Messages[k]) { SegmentFromBrackets(Messages[12], 61, 75); }
  lemma SegmentOfMessage13() ensures forall k :: k == 13 ==> HasSegment(Messages[k]) { SegmentFromBrackets(Messages[13], 36, 66); }
  lemma SegmentOfMessage14() ensures forall k :: k == 14 ==> HasSegment(Messages[k]) { SegmentFromBrackets(Messages[14], 59, 80); }
  lemma SegmentOfMessage15() ensures forall k :: k == 15 ==> HasSegment(Messages[k]) { SegmentFromBrackets(Messages[15], 52, 66); }
  lemma SegmentOfMessage16() ensures forall k :: k == 16 ==> HasSegment(Messages[k]) { SegmentFromBrackets(Messages[16], 48, 67); }
  lemma SegmentOfMessage17() ensures forall k :: k == 17 ==> HasSegment(Messages[k]) { SegmentFromBrackets(Messages[17], 54, 68); }
  lemma SegmentOfMessage18() ensures forall k :: k == 18 ==> HasSegment(Messages[k]) { SegmentFromBrackets(Messages[18], 24, 56); }
  lemma SegmentOfMessage19() ensures forall k :: k == 19 ==> HasSegment(Messages[k]) { SegmentFromBrackets(Messages[19], 50, 65); }
  lemma SegmentOfMessage20() ensures forall k :: k == 20 ==> HasSegment(Messages[k]) { SegmentFromBrackets(Messages[20], 36, 76); }
  lemma SegmentOfMessage21() ensures forall k :: k == 21 ==> HasSegment(Messages[k]) { SegmentFromBrackets(Messages[21], 35, 62); }
  lemma SegmentOfMessage22() ensures forall k :: k == 22 ==> HasSegment(Messages[k]) { SegmentFromBrackets(Messages[22], 50, 83); }
  lemma SegmentOfMessage23() ensures forall k :: k == 23 ==> HasSegment(Messages[k]) { SegmentFromBrackets(Messages[23], 36, 65); }
  lemma SegmentOfMessage24() ensures forall k :: k == 24 ==> HasSegment(Messages[k]) { SegmentFromBrackets(Messages[24], 70, 106); }
  lemma SegmentOfMessage25() ensures forall k :: k == 25 ==> HasSegment(Messages[k]) { SegmentFromBrackets(Messages[25], 52, 63); }
  lemma SegmentOfMessage26() ensures forall k :: k == 26 ==> HasSegment(Messages[k]) { SegmentFromBrackets(Messages[26], 42, 62); }
  lemma SegmentOfMessage27() ensures forall k :: k == 27 ==> HasSegment(Messages[k]) { SegmentFromBrackets(Messages[27], 49, 66); }
  lemma SegmentOfMessage28() ensures forall k :: k == 28 ==> HasSegment(Messages[k]) { SegmentFromBrackets(Messages[28], 52, 73); }
  lemma SegmentOfMessage29() ensures forall k :: k == 29 ==> HasSegment(Messages[k]) { SegmentFromBrackets(Messages[29], 54, 103); }
  lemma SegmentOfMessage30() ensures forall k :: k == 30 ==> HasSegment(Messages[k]) { SegmentFromBrackets(Messages[30], 33, 55); }
  lemma SegmentOfMessage31() ensures forall k :: k == 31 ==> HasSegment(Messages[k]) { SegmentFromBrackets(Messages[31], 47, 62); }
  lemma SegmentOfMessage32() ensures forall k :: k == 32 ==> HasSegment(Messages[k]) { SegmentFromBrackets(Messages[32], 36, 61); }
  lemma SegmentOfMessage33() ensures forall k :: k == 33 ==> HasSegment(Messages[k]) { SegmentFromBrackets(Messages[33], 20, 44); }
  lemma SegmentOfMessage34() ensures forall k :: k == 34 ==> HasSegment(Messages[k]) { SegmentFromBrackets(Messages[34], 33, 66); }
  lemma SegmentOfMessage35() ensures forall k :: k == 35 ==> HasSegment(Messages[k]) { SegmentFromBrackets(Messages[35], 59, 74); }
  lemma SegmentOfMessage36() ensures forall k :: k == 36 ==> HasSegment(Messages[k]) { SegmentFromBrackets(Messages[36], 37, 60); }
  lemma SegmentOfMessage37() ensures forall k :: k == 37 ==> HasSegment(Messages[k]) { SegmentFromBrackets(Messages[37], 35, 68); }
  lemma SegmentOfMessage38() ensures forall k :: k == 38 ==> HasSegment(Messages[k]) { SegmentFromBrackets(Messages[38], 35, 56); }
  lemma SegmentOfMessage39() ensures forall k :: k == 39 ==> HasSegment(Messages[k]) { SegmentFromBrackets(Messages[39], 43, 69); }
  lemma SegmentOfMessage40() ensures forall k :: k == 40 ==> HasSegment(Messages[k]) { SegmentFromBrackets(Messages[40], 45, 72); }

  lemma CannedMessagesHaveSegment()
    ensures forall k :: 0 <= k < |Messages| ==> HasSegment(Messages[k])
  {
    SegmentOfMessage0();
    SegmentOfMessage1();
    SegmentOfMessage2();
    SegmentOfMessage3();
    SegmentOfMessage4();
    SegmentOfMessage5();
    SegmentOfMessage6();
    SegmentOfMessage7();
    SegmentOfMessage8();
    SegmentOfMessage9();
    SegmentOfMessage10();
    SegmentOfMessage11();
    SegmentOfMessage12();
    SegmentOfMessage13();
    SegmentOfMessage14();
    SegmentOfMessage15();
    SegmentOfMessage16();
    SegmentOfMessage17();
    SegmentOfMessage18();
    SegmentOfMessage19();
    SegmentOfMessage20();
    SegmentOfMessage21();
    SegmentOfMessage22();
    SegmentOfMessage23();
    SegmentOfMessage24();
    SegmentOfMessage25();
    SegmentOfMessage26();
    SegmentOfMessage27();
    SegmentOfMessage28();
    SegmentOfMessage29();
    SegmentOfMessage30();
    SegmentOfMessage31();
    SegmentOfMessage32();
    SegmentOfMessage33();
    SegmentOfMessage34();
    SegmentOfMessage35();
    SegmentOfMessage36();
    SegmentOfMessage37();
    SegmentOfMessage38();
    SegmentOfMessage39();
    SegmentOfMessage40();
  }

  function IssueUrl(repo: string): string {
    "https://github.com/bombshell-dev/" + repo + "/issues/new/choose"
  }

  datatype IssueReply = IssueReply(content: string, buttonUrl: string)

  /** `command.execute`. `choice` is the index `random(messages)` picked. */
  function Execute(options: Option<seq<CommandOption>>, choice: nat): (r: IssueReply)
    requires choice < |Messages|
    ensures GetStringOption(options, "repo").None? ==> r.buttonUrl == IssueUrl(DefaultProject)
    ensures GetStringOption(options, "repo").Some? ==> r.buttonUrl == IssueUrl(GetStringOption(options, "repo").value)
    ensures LinksTo(r.content, r.buttonUrl)
  {
    var repo := GetStringOption(options, "repo").GetOr(DefaultProject);
    var url := IssueUrl(repo);
    CannedMessagesHaveSegment();
    AddLinkInsertsLink(Messages[choice], url);
    IssueReply(AddLink(Messages[choice], url), url)
  }

}

=== FILE: repo_pattern.dfy ===
/** The repository-format check of `/config set-default-repo`: the regular
    expression `^[\w\-\.]+\/[\w\-\.]+$` (no flags, so `\w` is ASCII letters,
    digits and `_`, and `$` anchors at the very end of the input). */
module RepoPattern {

  /** The character class `[\w\-\.]`. */
  predicate IsRepoChar(c: char) {
    || 'a' <= c <= 'z' || 'A' <= c <= 'Z' || '0' <= c <= '9'
    || c == '_' || c == '-' || c == '.'
  }

  predicate AllRepoChars(s: string) {
    forall j :: 0 <= j < |s| ==> IsRepoChar(s[j])
  }

  /** Matcher states: before the first owner character, inside the owner,
      right after the slash, inside the repository name. */
  datatype MatchState = OwnerStart | InOwner | NameStart | InName

  /** Runs the (deterministic) automaton of the expression from position `i`. */
  function Run(s: string, i: nat, st: MatchState): bool
    requires i <= |s|
    decreases |s| - i
  {
    if i == |s| then st == InName
    else
      var c := s[i];
      match st
      case OwnerStart => IsRepoChar(c) && Run(s, i + 1, InOwner)
      case InOwner =>
        if IsRepoChar(c) then Run(s, i + 1, InOwner)
        else c == '/' && Run(s, i + 1, NameStart)
      case NameStart => IsRepoChar(c) && Run(s, i + 1, InName)
      case InName => IsRepoChar(c) && Run(s, i + 1, InName)
  }

  /** `repository.match(/^[\w\-\.]+\/[\w\-\.]+$/)` is non-null. */
  predicate MatchesRepoPattern(s: string) {
    Run(s, 0, OwnerStart)
  }

  /** The intended shape: a slash at `k` with a non-empty owner before it and
      a non-empty name after it, both drawn from the character class. */
  predicate SlashAt(s: string, k: int) {
    && 0 < k < |s| - 1
    && s[k] == '/'
    && AllRepoChars(s[..k])
    && AllRepoChars(s[k + 1..])
  }

  ghost predicate RepoShape(s: string) {
    exists k :: SlashAt(s, k)
  }

  lemma {:induction false} RunInName(s: string, i: nat)
    requires i <= |s|
    ensures Run(s, i, InName) <==> AllRepoChars(s[i..])
    decreases |s| - i
  {
    if i < |s| {
      RunInName(s, i + 1);
      assert s[i..][1..] == s[i + 1..];
      assert s[i..][0] == s[i];
    }
  }

  lemma RunNameStart(s: string, i: nat)
    requires i <= |s|
    ensures Run(s, i, NameStart) <==> i < |s| && AllRepoChars(s[i..])
  {
    if i < |s| {
      RunInName(s, i + 1);
      assert s[i..][1..] == s[i + 1..];
      assert s[i..][0] == s[i];
    }
  }

  /** `s[i..]` splits at a slash `k` into a non-empty owner and name. */
  predicate SplitAt(s: string, i: int, k: int) {
    && 0 <= i <= k < |s| - 1
    && s[k] == '/'
    && AllRepoChars(s[i..k])
    && AllRepoChars(s[k + 1..])
  }

  lemma RepoCharsCons(s: string, i: nat, k: nat)
    requires i < k <= |s|
    ensures AllRepoChars(s[i..k]) <==> IsRepoChar(s[i]) && AllRepoChars(s[i + 1..k])
  {
    assert s[i..k][0] == s[i];
    assert s[i..k][1..] == s[i + 1..k];
  }

  lemma {:induction false} RunInOwner(s: string, i: nat)
    requires i <= |s|
    ensures Run(s, i, InOwner) <==> exists k :: SplitAt(s, i, k)
    decreases |s| - i
  {
    if i < |s| {
      var c := s[i];
      if IsRepoChar(c) {
        var j := i + 1;
        RunInOwner(s, j);
        forall k
          ensures SplitAt(s, i, k) <==> SplitAt(s, j, k)
        {
          if i < k < |s| {
            RepoCharsCons(s, i, k);
          }
        }
      } else if c == '/' {
        RunNameStart(s, i + 1);
        if i + 1 < |s| && AllRepoChars(s[i + 1..]) {
          assert SplitAt(s, i, i);
        }
        forall k | i < k < |s|
          ensures !SplitAt(s, i, k)
        {
          RepoCharsCons(s, i, k);
        }
      } else {
        forall k | i < k < |s|
          ensures !SplitAt(s, i, k)
        {
          RepoCharsCons(s, i, k);
        }
      }
    }
  }

  /** The matcher accepts exactly the strings of the intended shape. */
  lemma MatchesIffShape(s: string)
    ensures MatchesRepoPattern(s) <==> RepoShape(s)
  {
    if |s| > 0 && IsRepoChar(s[0]) {
      RunInOwner(s, 1);
      forall k
        ensures SlashAt(s, k) <==> SplitAt(s, 1, k)
      {
        if 0 < k < |s| {
          RepoCharsCons(s, 0, k);
          assert s[..k] == s[0..k];
        }
      }
    } else if |s| > 0 {
      forall k | 0 < k < |s|
        ensures !SlashAt(s, k)
      {
        RepoCharsCons(s, 0, k);
        assert s[..k] == s[0..k];
      }
    }
  }

  /** An accepted repository contains exactly one slash, with non-empty sides. */
  lemma AcceptedHasOneSlash(s: string)
    requires MatchesRepoPattern(s)
    ensures exists k :: SlashAt(s, k) && forall j :: 0 <= j < |s| && s[j] == '/' ==> j == k
  {
    MatchesIffShape(s);
    var k :| SlashAt(s, k);
    forall j | 0 <= j < |s| && s[j] == '/'
      ensures j == k
    {
    }
  }
}

=== FILE: router.dfy ===
/** The Worker entry point of `src/index.ts`: the POST `/` dispatch over a
    verified Discord interaction, the command registry of
    `src/commands/index.ts`, and the `fetch` wrapper that turns exceptions
    into 500 and a missing router result into 404. */
module Router {
  import opened Wrappers
  import opened Interactions
  import opened DiscordUtils
  import InitCommand

  /** What the router needs to know of a registered command: whether it
      defines `initialize` (and what that returns for this request),
      `autocomplete` and `button`. */
  datatype CommandEntry = CommandEntry(
    hasInitialize: bool,
    initializeResult: bool,
    hasAutocomplete: bool,
    hasButton: bool)

  /** `/issue` defines only `data` and `execute`. */
  const IssueEntry := CommandEntry(false, false, false, false)

  /** The registry `commands`: exactly `issue`, `ptal` and `tweet`. The
      `ptal` and `tweet` commands are not part of this model, so their
      entries are inputs. */
  function Commands(ptal: CommandEntry, tweet: CommandEntry): (r: map<string, CommandEntry>)
    ensures r.Keys == {"issue", "ptal", "tweet"}
    ensures r["issue"] == IssueEntry
  {
    map["issue" := IssueEntry, "ptal" := ptal, "tweet" := tweet]
  }

  /** The handler the router hands the interaction to. */
  datatype HandlerKind = Execute | Autocomplete | Button

  datatype Decision =
    | BadSignature              // 401
    | Pong                      // PONG reply
    | InitializeFailed          // 500 'Internal error'
    | CommandNotFound           // 404 'Command not found'
    | NotFound                  // 404 'Not found'
    | Invoke(handler: HandlerKind, command: string)

  /** `data.custom_id.split('-')[0]`: everything before the first `-`. */
  function CustomIdPrefix(customId: string): (r: string)
    ensures |r| <= |customId| && r == customId[..|r|]
    ensures '-' !in r
    ensures |r| < |customId| ==> customId[|r|] == '-'
  {
    if |customId| == 0 || customId[0] == '-' then ""
    else [customId[0]] + CustomIdPrefix(customId[1..])
  }

  /** The `initialize` gate shared by the three handler kinds. */
  function Gate(entry: CommandEntry, handler: HandlerKind, name: string): (r: Decision)
    ensures r == InitializeFailed <==> entry.hasInitialize && !entry.initializeResult
    ensures r != InitializeFailed ==> r == Invoke(handler, name)
  {
    if entry.hasInitialize && !entry.initializeResult then InitializeFailed else Invoke(handler, name)
  }

  /** The dispatch of a verified interaction by its type. */
  function Dispatch(i: Interaction, commands: map<string, CommandEntry>): (r: Decision)
    ensures r != BadSignature
    ensures r == Pong <==> i.kind == Ping
    // Slash commands: 404 unless registered; `execute` runs unless `initialize` fails.
    ensures i.kind == ApplicationCommand ==>
      && (i.data.name !in commands ==> r == CommandNotFound)
      && (i.data.name in commands ==> r == Gate(commands[i.data.name], Execute, i.data.name))
    // Autocomplete: 404 unless registered with an `autocomplete` handler.
    ensures i.kind == ApplicationCommandAutocomplete ==>
      && (i.data.name !in commands || !commands[i.data.name].hasAutocomplete ==> r == CommandNotFound)
      && (i.data.name in commands && commands[i.data.name].hasAutocomplete ==>
            r == Gate(commands[i.data.name], Autocomplete, i.data.name))
    // Components: routed by the custom id prefix, falling through to 404.
    ensures i.kind == MessageComponent ==>
      var name := CustomIdPrefix(i.data.customId);
      && (name !in commands || !commands[name].hasButton ==> r == NotFound)
      && (name in commands && commands[name].hasButton ==> r == Gate(commands[name], Button, name))
    // Any other interaction type falls through to the final 404.
    ensures i.kind == OtherKind ==> r == NotFound
    ensures r.Invoke? ==> r.command in commands
  {
    match i.kind
    case Ping => Pong
    case ApplicationCommand =>
      if i.data.name in commands then Gate(commands[i.data.name], Execute, i.data.name) else CommandNotFound
    case ApplicationCommandAutocomplete =>
      if i.data.name in commands && commands[i.data.name].hasAutocomplete
      then Gate(commands[i.data.name], Autocomplete, i.data.name) else CommandNotFound
    case MessageComponent =>
      var name := CustomIdPrefix(i.data.customId);
      if name in commands && commands[name].hasButton then Gate(commands[name], Button, name) else NotFound
    case OtherKind => NotFound
  }

  /** The POST `/` handler after `verifyDiscordRequest` returned `v`: the
      signature gate, then the dispatch of the interaction. */
  function Route(v: Verification, commands: map<string, CommandEntry>): (r: Decision)
    // Bad signature or no interaction: 401 before any dispatch, and only then.
    ensures r == BadSignature <==> !v.isValid || v.interaction.None?
    ensures v.isValid && v.interaction.Some? ==> r == Dispatch(v.interaction.value, commands)
    ensures r.Invoke? ==> r.command in commands
  {
    if !v.isValid || v.interaction.None? then BadSignature
    else Dispatch(v.interaction.value, commands)
  }

  datatype HttpMethod = Get | Post | OtherMethod

  /** An incoming HTTP request: method, path and the Discord signature parts. */
  datatype HttpRequest = HttpRequest(verb: HttpMethod, path: string, discord: DiscordRequest)

  datatype HttpResponse =
    | HelloWorld                          // GET /
    | PongResponse
    | Status(code: int)                   // a plain error response
    | HandlerResponse(handler: HandlerKind, command: string)

  /** Both signature headers are present and `verifyKey` accepts them. */
  predicate Authentic(d: DiscordRequest, keyValid: bool) {
    Truthy(d.signature) && Truthy(d.timestamp) && keyValid
  }

  /** `fetch`. `keyValid` is the Ed25519 check's answer and `handlerThrows`
      whether the invoked command handler throws. Exceptions become 500 and
      a request no route matches becomes 404. */
  function Fetch(req: HttpRequest, keyValid: bool, commands: map<string, CommandEntry>, handlerThrows: bool): (r: HttpResponse)
    ensures r == HelloWorld <==> req.verb == Get && req.path == "/"
    ensures req.path != "/" || req.verb == OtherMethod ==> r == Status(404)
    // 401: a missing header, a rejected key, or a body that parses to no interaction.
    ensures req.verb == Post && req.path == "/" ==>
      (r == Status(401) <==> !Authentic(req.discord, keyValid) || req.discord.body.JsonNull?)
    ensures r == PongResponse <==>
      && req.verb == Post && req.path == "/" && Authentic(req.discord, keyValid)
      && req.discord.body.JsonValue? && req.discord.body.value.kind == Ping
    // 500: the body's syntax error, a failed `initialize`, or a throwing handler.
    ensures r == Status(500) <==>
      && req.verb == Post && req.path == "/" && Authentic(req.discord, keyValid)
      && (|| req.discord.body.Unparsable?
          || (&& req.discord.body.JsonValue?
              && var d := Dispatch(req.discord.body.value, commands);
                 d == InitializeFailed || (d.Invoke? && handlerThrows)))
    // A handler answers exactly when the dispatch invokes one that returns.
    ensures r.HandlerResponse? <==>
      && req.verb == Post && req.path == "/" && Authentic(req.discord, keyValid)
      && req.discord.body.JsonValue? && Dispatch(req.discord.body.value, commands).Invoke? && !handlerThrows
    ensures r.HandlerResponse? ==>
      && r.command in commands
      && Dispatch(req.discord.body.value, commands) == Invoke(r.handler, r.command)
    // 404 on POST: an unregistered command or a component nobody handles.
    ensures && req.verb == Post && req.path == "/" && Authentic(req.discord, keyValid)
            && req.discord.body.JsonValue?
            && (Dispatch(req.discord.body.value, commands).CommandNotFound? || Dispatch(req.discord.body.value, commands).NotFound?) ==>
      r == Status(404)
  {
    if req.path != "/" || req.verb == OtherMethod then Status(404)
    else if req.verb == Get then HelloWorld
    else
      assert req.verb == Post && req.path == "/";
      var outcome := VerifyDiscordRequest(req.discord, keyValid);
      assert outcome.Threw? <==> Authentic(req.discord, keyValid) && req.discord.body.Unparsable?;
      match outcome
      case Threw => Status(500)
      case Returned(v) =>
        assert v.isValid && v.interaction.Some? <==> Authentic(req.discord, keyValid) && req.discord.body.JsonValue?;
        assert v.interaction.Some? ==> v.interaction.value == req.discord.body.value;
        var d := Route(v, commands);
        assert d != BadSignature ==>
          && Authentic(req.discord, keyValid) && req.discord.body.JsonValue?
          && d == Dispatch(req.discord.body.value, commands);
        match d
        case BadSignature => Status(401)
        case Pong => PongResponse
        case InitializeFailed => Status(500)
        case CommandNotFound => Status(404)
        case NotFound => Status(404)
        case Invoke(h, name) => if handlerThrows then Status(500) else HandlerResponse(h, name)
  }

  /** A request without both signature headers is answered 401 and no
      handler ever runs. */
  lemma UnsignedIsRejected(req: HttpRequest, keyValid: bool, commands: map<string, CommandEntry>, handlerThrows: bool)
    requires req.verb == Post && req.path == "/"
    requires !Truthy(req.discord.signature) || !Truthy(req.discord.timestamp)
    ensures Fetch(req, keyValid, commands, handlerThrows) == Status(401)
  {
  }

  /** `/config` and `/init` are not in the registry, so slash commands with
      those names are answered 404 and their handlers are never reached. */
  lemma ConfigAndInitAreUnrouted(v: Verification, ptal: CommandEntry, tweet: CommandEntry)
    requires v.isValid && v.interaction.Some? && v.interaction.value.kind == ApplicationCommand
    requires v.interaction.value.data.name in {"config", "init"}
    ensures Route(v, Commands(ptal, tweet)) == CommandNotFound
  {
  }

  /** Splitting an id built as `prefix-rest` at its first `-` gives back
      the prefix, whatever the rest holds. */
  lemma {:induction false} PrefixOfJoined(prefix: string, rest: string)
    requires '-' !in prefix
    ensures CustomIdPrefix(prefix + "-" + rest) == prefix
  {
    if prefix != [] {
      assert (prefix + "-" + rest)[1..] == prefix[1..] + "-" + rest;
      PrefixOfJoined(prefix[1..], rest);
    }
  }

  /** The registry key a `mark-installed` button is looked up under. */
  lemma MarkInstalledPrefix()
    ensures CustomIdPrefix(InitCommand.MarkInstalledId) == "mark"
  {
    assert InitCommand.MarkInstalledId == "mark" + "-" + "installed";
    PrefixOfJoined("mark", "installed");
  }

  /** The `mark-installed` button is routed by its prefix `mark`, which no
      command is registered under: it is answered 404. */
  lemma MarkInstalledButtonIsUnrouted(v: Verification, ptal: CommandEntry, tweet: CommandEntry)
    requires v.isValid && v.interaction.Some? && v.interaction.value.kind == MessageComponent
    requires v.interaction.value.data.customId == InitCommand.MarkInstalledId
    ensures Route(v, Commands(ptal, tweet)) == NotFound
  {
    MarkInstalledPrefix();
    var commands := Commands(ptal, tweet);
    assert "mark"[0] != "ptal"[0] && |"mark"| != |"issue"| && |"mark"| != |"tweet"|;
    assert "mark" !in commands.Keys;
  }
}

=== FILE: store.dfy ===
/** The records the bot keeps in its Durable Object and the calls it makes
    on it. The object's own behaviour is not part of this model (its class
    only defines `sayHello`), so every call is recorded in a trace and every
    read answer is an input supplied by the caller, with no merge or
    resolution rules attached. */
module Store {
  import opened Wrappers

  /** Per-channel settings. `features` is kept as an opaque serialized blob. */
  datatype ChannelConfig = ChannelConfig(
    defaultRepository: Option<string>,
    features: Option<string>)

  /** Per-guild settings; `channels` maps channel ids to their settings. */
  datatype GuildConfig = GuildConfig(
    defaultRepository: Option<string>,
    githubAppInstalled: bool,
    channels: map<string, ChannelConfig>)

  /** One posted chat message that shows a pull request. */
  datatype PTALMessageMapping = PTALMessageMapping(
    channelId: string,
    messageId: string,
    webhookToken: string,
    githubUrl: string,
    deploymentUrl: Option<string>,
    otherUrls: Option<seq<string>>,
    emoji: Option<string>)

  /** The pull request identity read from a webhook payload. The payload
      fields may be missing, in which case `undefined` is passed on. */
  datatype PullRequestKey = PullRequestKey(
    owner: Option<string>,
    repo: Option<string>,
    number: Option<int>)

  /** The only partial record the commands write: `{ defaultRepository: undefined }`. */
  datatype ConfigPatch = ClearDefaultRepository

  datatype StoreCall =
    | GetPTALs(key: PullRequestKey)
    | GetGuildConfig(guildId: string)
    | GetChannelConfig(guildId: string, channelId: string)
    | GetDefaultRepository(guildId: string, channel: Option<string>)
    | SetDefaultRepository(guildId: string, repository: string, channel: Option<string>)
    | SetChannelConfig(guildId: string, channelId: string, patch: ConfigPatch)
    | SetGuildConfig(guildId: string, patch: ConfigPatch)
    | MarkGitHubAppInstalled(guildId: string)

  /** Calls that change stored state. */
  predicate IsWrite(c: StoreCall) {
    c.SetDefaultRepository? || c.SetChannelConfig? || c.SetGuildConfig? || c.MarkGitHubAppInstalled?
  }

  /** The guild (or DM-less) key a configuration call addresses. */
  predicate AddressesGuild(c: StoreCall, guildId: string) {
    !c.GetPTALs? && c.guildId == guildId
  }

  /** What the store answers to the reads a command makes for one guild
      (and, where asked, one channel). */
  datatype StoreReads = StoreReads(
    guildConfig: Option<GuildConfig>,
    channelConfig: Option<ChannelConfig>,
    defaultRepository: Option<string>)
}

=== FILE: wrappers.dfy ===
/** The JavaScript value shapes every module of the model shares: a value
    that may be absent, a call that may throw, the result of `JSON.parse`,
    and the "truthy" test on an optional string. */
module Wrappers {

  /** A value that may be absent (`undefined` / `null` in the source). */
  datatype Option<+T> = None | Some(value: T) {

    /** Returns the value in Some, or `default` when absent (the `??` operator). */
    function GetOr(default: T): T {
      match this
      case Some(v) => v
      case None => default
    }
  }

  /** The result of a JavaScript call that may throw: it either returns a
      value or raises an exception that the caller must catch or propagate. */
  datatype Outcome<+T> = Returned(value: T) | Threw

  /** What `JSON.parse` yields on a request body: a syntax error (the call
      throws), a falsy document (`null`, `false`, `0` or `""`), or a value
      of the expected shape. */
  datatype JsonBody<+T> = Unparsable | JsonNull | JsonValue(value: T)

  /** A JavaScript string that may be missing is truthy exactly when it is
      present and non-empty: `undefined`, `null` and `""` are all falsy. */
  predicate Truthy(s: Option<string>) {
    s.Some? && s.value != ""
  }

  /** `s || null`: keeps a truthy string and maps every falsy one to absent. */
  function OrNull(s: Option<string>): (r: Option<string>)
    ensures r.Some? <==> Truthy(s)
    ensures r.Some? ==> r == s
  {
    if Truthy(s) then s else None
  }
}
